=== FILE: README.md ===
# VisiTrack core, modelled in Dafny

VisiTrack is a visitor-management backend written in Go. It has a REST API (gin), a gRPC API, a PostgreSQL store generated by sqlc, and an asynq worker meant to send a verification e-mail after sign-up. The sending is still a TODO in the source: the task handler only looks the user up and logs, so its success means that the user exists, not that an e-mail went out. This project models the parts of it that decide something:

- the field validators;
- request validation and error classification in the gRPC handlers CreateUser, UpdateUserName and LoginUser;
- the `AfterCreate` hook that schedules the verification-email task, and the task's producer and handler;
- `execTx`, which runs a unit of work inside a database transaction;
- the row-to-message converter;
- in the REST API, `createUser` with its availability-grid seeding, `signupUser`, `listUsers` with its page offset, and the appointment create, status-update and lookup handlers.

The model's conventions:

- Everything outside these handlers is a function-typed parameter: the database, the broker client, the JSON codec and `time`. A handler is a pure function, or a method for the grid loop. Every gRPC and REST handler returns its response together with the store call it issued (`GapiStatus.Handled`, `Http.Handled`, and the call list of ApiUsers.CreateUser), so "the store was not called" is part of its contract.
- Errors form a datatype (`Errors.Error`). Go decides "no rows" with `err == sql.ErrNoRows` and "unique violation" with a type assertion on `*pq.Error`. Both look at the outermost error only, and the model does the same. A wrapped or combined error is therefore never classified as either.
- Go strings are `seq<char>` (runes). Go's `len` is the UTF-8 byte length, `GoTypes.Utf8Len`.
- `int32(...)` conversions are written out as `GoTypes.Wrap32`.

Modules, one per source file:

- `GoTypes` and `Errors`: shared types.
- `Validator`: `backend/val/validator.go`.
- `Strconv`: `Itoa`/`Atoi` on decimal strings.
- `Db`: `backend/db/sqlc/store.go`.
- `Worker`: `backend/worker/task_send_verify_email.go`.
- `Converter`: `backend/gapi/converter.go`.
- `GapiStatus`: gRPC statuses and the fold that collects field violations.
- `RpcCreateUser`, `RpcUpdateUserName`, `RpcLoginUser`: the gRPC handlers.
- `Http`, `ApiUsers`, `ApiAppointments`: the REST handlers.

## Model

| member | source | states |
|---|---|---|
| GoTypes.Wrap32 | backend/worker/task_send_verify_email.go:55 | Go's `int32(x)` gives a value congruent to x modulo 2^32 in the int32 range, and leaves x unchanged when x already fits |
| GoTypes.Utf8LenVersusRunes | backend/val/validator.go:6-8 | the byte length `len` checks is never below the rune count the loops walk, and equals it exactly for ASCII strings |
| Validator.FirstRejected | backend/val/validator.go:19-23 | the `range` loop stops at the first rune that fails the test; None exactly when every rune passes |
| Validator.ValidateString | backend/val/validator.go:5-12 | accepts exactly when `minLength <= len(value) <= maxLength`; otherwise the error carries both bounds and the length |
| Validator.ValidatePhoneNumber | backend/val/validator.go:14-25 | accepts exactly ten decimal digits; a length other than 10 is reported as a length error whatever the content; with length 10, a rejection names the first rune that is not a digit |
| Validator.ValidateName | backend/val/validator.go:27-40 | accepts exactly 1 to 30 ASCII letters; a byte length outside 1..30 is reported as a length error; with a length in range, a rejection names the field and the first rune that is not an ASCII letter |
| Validator.ValidateFirstName | backend/val/validator.go:27-40 | accepts exactly 1 to 30 ASCII letters; the empty name is rejected |
| Validator.ValidateLastName | backend/val/validator.go:42-55 | has the same acceptance set as ValidateFirstName |
| Validator.ValidateRole | backend/val/validator.go:57-62 | accepts exactly "", "admin" and "user"; a rejection names the role |
| Validator.ValidateID | backend/val/validator.go:64-69 | accepts exactly the positive ids |
| Strconv.NatDigits | backend/gapi/rpc_create_user.go:36 | a natural's decimal form is a non-empty string of digits with no leading zero |
| Strconv.DigitsValueOfNatDigits | backend/gapi/rpc_create_user.go:36 | reading the decimal form of n back gives n |
| Strconv.Atoi | backend/worker/task_send_verify_email.go:50-54 | succeeds exactly on an optional sign followed by at least one digit whose value fits in int64, and then returns that value |
| Strconv.AtoiItoa | backend/gapi/rpc_create_user.go:35-37 | `Atoi(Itoa(i)) == i` for every int64 i |
| Strconv.ItoaInjective | backend/gapi/rpc_create_user.go:36 | distinct ids have distinct payload strings |
| Db.ExecTx | backend/db/sqlc/store.go:30-46 | the trace is a well-formed transaction; a begin failure never runs the work and returns the begin error unchanged; the work sees only queries bound to the new transaction; after a begin exactly one of commit and rollback is attempted; a successful work commits and returns the commit's error; a failed work is rolled back, never committed, and its error is returned unchanged if the rollback succeeds, or combined with the rollback error (both carried) if not |
| Worker.Resolve | backend/gapi/rpc_create_user.go:39-43 | options apply left to right: each of retry count, delay and queue is the broker default exactly when no option of its kind is given |
| Worker.ResolveLastWins | backend/gapi/rpc_create_user.go:39-43 | the last option of each kind decides that setting, whatever other options come before or after it |
| Worker.DistributeTaskSendVerifyEmail | backend/worker/task_send_verify_email.go:20-38 | a marshal failure enqueues nothing and returns the wrapped error; otherwise exactly the task typed `task:send_verify_email`, with the encoded payload and the caller's options, is enqueued; the result is nil exactly when that enqueue succeeds, and the wrapped enqueue error otherwise |
| Worker.ProcessTaskSendVerifyEmail | backend/worker/task_send_verify_email.go:40-66 | SkipRetry exactly when the payload does not decode, the id does not parse, or the user lookup finds no row; success exactly when the user exists; any other lookup error is retried and carries that error |
| Worker.PayloadIdTruncates | backend/worker/task_send_verify_email.go:50-55 | the handler reads the decimal form of an int64 as its low 32 bits |
| Worker.OutOfRangeIdAliases | backend/worker/task_send_verify_email.go:55 | an id 2^32 above a user's id names that user ("4294967297" is user 1) |
| Converter.ConvertUserToProto | backend/gapi/converter.go:9-25 | the field mapping: the id is widened unchanged; phone, first name, last name and role text are copied; `appointments_booked` is filled from `appointments_visited` and `appointments_hosted` from `appointments_hosted`; `created_at` is absent exactly when NULL, and otherwise carries the row's time |
| Converter.ConvertKeepsVisibleFields | backend/gapi/converter.go:9-25 | two rows give the same message exactly when they agree on id, phone, names, role text, created_at and both counters, with `appointments_booked` taken from `appointments_visited` |
| Converter.NullRoleIndistinguishable | backend/gapi/converter.go:15 | a NULL role and an empty role give the same message |
| GapiStatus.Check | backend/gapi/rpc_create_user.go:65-67 | one field check appends a violation exactly when the validator rejects, and that violation carries the field and the error |
| GapiStatus.FailingFields | backend/gapi/rpc_create_user.go:64-82 | the reference list of failing fields contains exactly the fields whose verdict rejects, and is empty exactly when every verdict accepts |
| GapiStatus.FieldReportedAt | backend/gapi/rpc_create_user.go:64-82 | a field named once is in the failing list exactly when its own verdict rejects |
| GapiStatus.DistinctFieldsReported | backend/gapi/rpc_create_user.go:64-82 | when no field name repeats, every field is in the failing list exactly when its own verdict rejects; both gRPC request validators rely on this |
| GapiStatus.ValidateFields | backend/gapi/rpc_create_user.go:64-82 | the field names of the collected violations are exactly the failing fields, in visiting order |
| GapiStatus.ViolationErrors | backend/gapi/rpc_create_user.go:64-82 | every collected violation carries exactly the error its own field's validator returned |
| GapiStatus.RowError | backend/gapi/rpc_login_user.go:20-26 | a "no rows" error is NotFound, and every other error Internal with the error; UpdateUserName (backend/gapi/rpc_update_user_name.go:33-39) maps the same way |
| RpcCreateUser.ValidateCreateUserRequest | backend/gapi/rpc_create_user.go:64-82 | one violation per failing field, in the order phone_number, first_name, last_name, role, each with its validator's error |
| RpcCreateUser.CreateUserFieldsReported | backend/gapi/rpc_create_user.go:64-82 | phone_number is reported exactly when the phone is not ten digits, each name exactly when it is not 1 to 30 letters, and role exactly when it is not "", "admin" or "user" |
| RpcCreateUser.CreateUserRequestValidIff | backend/gapi/rpc_create_user.go:64-82 | there are no violations exactly when the phone is ten digits, both names are 1 to 30 letters, and the role is "", "admin" or "user" |
| RpcCreateUser.CreateUserArgs | backend/gapi/rpc_create_user.go:26-32 | phone and names pass through unchanged; the role is stored as non-NULL exactly when the request gives a non-empty role, with its text kept |
| RpcCreateUser.CreateUserError | backend/gapi/rpc_create_user.go:50-55 | a unique violation is AlreadyExists and every other error Internal, and the status carries the error |
| RpcCreateUser.CreateUser | backend/gapi/rpc_create_user.go:20-62 | the store is called exactly when there is no violation, and then with the request's parameters; violations give InvalidArgument; a store error gives its mapped status; success returns the converted user |
| RpcCreateUser.CreateUserOutcomes | backend/gapi/rpc_create_user.go:20-62 | success, AlreadyExists and InvalidArgument each hold exactly under a condition on the request and the store's answer alone |
| RpcCreateUser.WrappedUniqueViolationIsInternal | backend/gapi/rpc_create_user.go:51 | a unique violation that arrives wrapped, or combined with a rollback error, is answered Internal, not AlreadyExists |
| RpcCreateUser.VerifyEmailPayload | backend/gapi/rpc_create_user.go:35-37 | the payload's user_id is the decimal string of the new user's id, as strconv.Itoa writes it, and the worker's Atoi followed by int32 conversion recovers that id from it |
| RpcCreateUser.VerifyEmailDelivery | backend/gapi/rpc_create_user.go:39-43 | the hook's options resolve to 10 retries, a 10-second delay and the critical queue |
| RpcCreateUser.AfterCreate | backend/gapi/rpc_create_user.go:33-46 | the hook submits a task exactly when the payload marshals; that task is the verify-email type with this user's encoded payload and the fixed options, which resolve to 10 retries, 10 s and the critical queue; the result is nil exactly when that task was enqueued |
| RpcCreateUser.VerifyEmailTaskReachesUser | backend/worker/task_send_verify_email.go:40-66 | given a codec that reads back what it wrote, a task the hook enqueued for a user succeeds if that user exists, is dropped if no row is found, and is retried with the wrapped error otherwise |
| RpcUpdateUserName.ValidateUpdateUserNameRequest | backend/gapi/rpc_update_user_name.go:48-66 | the violations name exactly the failing fields in the order user_id, first_name, last_name, each with its validator's error; an empty name is not validated |
| RpcUpdateUserName.UpdateUserNameFieldsReported | backend/gapi/rpc_update_user_name.go:48-66 | user_id is reported exactly when it is not positive, and a name exactly when it is non-empty and not 1 to 30 letters |
| RpcUpdateUserName.UpdateUserNameValidIff | backend/gapi/rpc_update_user_name.go:48-66 | there are no violations exactly when the id is positive and each name is empty or 1 to 30 letters |
| RpcUpdateUserName.UpdateUserNameArgs | backend/gapi/rpc_update_user_name.go:21-31 | each name column is written (non-NULL) exactly when the request gives that name |
| RpcUpdateUserName.UpdateUserName | backend/gapi/rpc_update_user_name.go:15-46 | the store is called exactly when there is no violation, and then with UpdateUserNameArgs; violations give InvalidArgument; the updated user is returned converted, and a store error is mapped by RowError |
| RpcUpdateUserName.EmptyNamesUpdateNothing | backend/gapi/rpc_update_user_name.go:53-63 | a positive id with both names empty is valid and writes neither name column |
| RpcLoginUser.ValidateLoginUserRequest | backend/gapi/rpc_login_user.go:37-43 | at most one violation, on phone_number, present exactly when the phone is not ten digits |
| RpcLoginUser.LoginUser | backend/gapi/rpc_login_user.go:14-35 | the lookup runs exactly when the phone is valid, and on that phone; invalid requests give InvalidArgument; the found user is returned converted, and a lookup error is mapped by RowError |
| Http.RowFailureStatus | backend/api/appointments.go:64-72 | a failed row lookup answers 404 exactly for "no rows", and 500 otherwise |
| ApiUsers.CreateUserParamsOf | backend/api/users.go:28-33 | phone and names pass through unchanged; the role is stored as non-NULL exactly when the request gives a non-empty role, with its text kept |
| ApiUsers.CreateUserFailure | backend/api/users.go:36-43 | a failed insert answers 403 exactly for a unique violation and 500 otherwise, with the error as body |
| ApiUsers.AvailabilityGridShape | backend/api/users.go:47-69 | the seeded grid has 45 slots, all of the new user, each starting on the hour between 9:00 and 17:00 on days 1 to 5 and ending one hour later; each (day, hour) pair sits at its day-major position, and the slots are strictly ordered by day, then start |
| ApiUsers.CreateUser | backend/api/users.go:21-80 | a request that fails to bind gives 400 and touches nothing; a failed insert gives 403 or 500 and seeds no slot; after the insert the slot calls are a prefix of the grid and stop at the first failure, which answers 500 with the wrapped error; 200 with the user exactly when all 45 slots succeed; no call undoes the inserted user |
| ApiUsers.SignupUser | backend/api/users.go:89-114 | a request that does not bind is 400 and never reaches the store; otherwise the same insert and error mapping as createUser, answering 201 with the user and seeding no slots |
| ApiUsers.ListUsersOffsetOverflows | backend/api/users.go:200-205 | for a valid query (page_id 21474838, page_size 100) the offset as written wraps to −2147483596, and the handler as written sends that offset to the store |
| ApiUsers.ListUsersPage | backend/api/users.go:188-203 | the corrected page has limit page_size and offset (page_id − 1)·page_size, which is never negative, and exists exactly when that offset fits in int32 |
| ApiUsers.ListUsersOffsetAgreesInRange | backend/api/users.go:200-203 | whenever the product fits in int32, the offset as written equals the corrected one |
| ApiUsers.ListUsersPagesAdjacent | backend/api/users.go:200-203 | consecutive pages tile the listing: page p+1 starts where page p ends |
| ApiUsers.ListingResponse | backend/api/users.go:205-211 | 200 with the users exactly when the listing succeeded, otherwise 500 with the store's error |
| ApiUsers.ListUsersAsWritten | backend/api/users.go:193-212 | the store is called exactly when page_id ≥ 1 and 5 ≤ page_size ≤ 100, otherwise 400; the call has limit page_size and the int32-wrapped offset; 200 with the users on success, 500 with the error on failure |
| ApiUsers.ListUsers | backend/api/users.go:200-203 | the corrected handler: the store is called exactly for a valid query whose offset fits in int32, and only with ListUsersPage, whose offset is never negative; every other query is 400; 200 or 500 as in the code as written |
| ApiUsers.ListUsersHandlersAgree | backend/api/users.go:193-212 | the corrected handler gives the same store call and response as the code as written exactly when the query is invalid or its offset fits in int32 |
| ApiAppointments.CreateAppointmentArgs | backend/api/appointments.go:30-42 | the status is always stored: "pending" when the request has none, the request's status verbatim otherwise; the QR code is always non-NULL; the ids are narrowed to int32; the times pass through |
| ApiAppointments.CreateAcceptsAnyStatus | backend/api/appointments.go:19 | creation stores any status outside the four verbatim, while the update refuses to bind that same status |
| ApiAppointments.CreateAppointment | backend/api/appointments.go:23-51 | the store is called exactly when the request binds, and then with CreateAppointmentArgs; a store error is 500, success 200 with the appointment |
| ApiAppointments.BindUpdateAppointmentStatus | backend/api/appointments.go:168-171 | a body binds exactly when it has an id of at least 1 and one of pending, ongoing, cancelled and completed as status |
| ApiAppointments.UpdateAppointmentStatus | backend/api/appointments.go:173-196 | the store is called exactly when the body binds, so only those four statuses reach it; otherwise 400; no rows is 404 with "no appointment found with this ID", other errors 500 with the error |
| ApiAppointments.GetAppointmentByID | backend/api/appointments.go:57-75 | ids below 1 are 400 and never reach the store; otherwise the int32-narrowed id is looked up, no rows is 404 and other errors 500 |
| ApiAppointments.GetAppointmentByQRCode | backend/api/appointments.go:148-166 | an empty code is 400 and never reaches the store; otherwise the non-NULL code is looked up, no rows is 404 with "no appointment found for this QR code", other errors 500 |
| ApiAppointments.NotFoundBodies | backend/api/appointments.go:64-72 | a 404 from the status update or the QR-code lookup shows that handler's fixed message, never the store's error, while a 404 from the lookup by id shows `sql.ErrNoRows` itself; appointments.go:155-162 and 185-192 give the fixed messages |
| ApiAppointments.WrappedNoRowsIsServerError | backend/api/appointments.go:157 | only the bare "no rows" error is 404; a wrapped one is 500 in the status update and both lookups |

## Left out

- Process wiring is not modelled: HTTP and gRPC routing, server construction, configuration, and `main`.
- The asynq broker is not modelled: Redis storage, retry and backoff scheduling, worker-pool concurrency, and logging. The model keeps only what the task code hands to the broker and the handler's three-way outcome.
- Because the handler is a pure function of the task and the lookup's answer, processing the same task twice against the same store gives the same outcome by construction. No lemma states this.
- Twilio SMS and OTP handling are not modelled: they wrap a third-party network client.
- The REST forwarders that only wrap store calls are not modelled: the other handlers in `backend/api/users.go` and `backend/api/appointments.go`, the availability, appointment-log and stats handlers, and the frontend. Their error mappings differ from handler to handler (REST `loginUser`, for one, answers 401 for "no rows"), and none is claimed here.
- The JSON codec, `time.Parse` and the broker client are parameters. In createUser, the two `time.Parse` error branches are left out: the layout and inputs are fixed, and Go parses them without error. HourMark stands for the parsed time.
- The body of `CreateUserTx` is not part of this model. So the model makes no claim about when the hook runs, nor whether the insert and the enqueue are atomic. `Db.CreateUserTxParams` leaves out the `AfterCreate` field that the Go struct carries, so the store call RpcCreateUser.CreateUser records does not say which hook it installs. The hook is modelled on its own (RpcCreateUser.AfterCreate), and the transaction's result is a parameter of RpcCreateUser.CreateUser.
- The file defining `worker.QueueCritical` is not part of this model. Worker.QueueCritical takes the value "critical". That value is assumed from the constant's name and the comment at backend/gapi/rpc_create_user.go:42; no file in this model defines it.
- Strconv.Atoi: merges Go's syntax and range errors into one None, because the handler treats both alike (SkipRetry).
- GoTypes.Utf8Len: invalid UTF-8 is not modelled, because strings are sequences of Unicode scalar values.
- ApiUsers.CreateUser, ApiUsers.SignupUser, ApiAppointments.CreateAppointment: gin's binding rules for JSON bodies (`required`, `e164`, `oneof=admin user`) are abstracted. The request arrives bound, or as the binding error. The query rules of listUsers and the status rule of updateAppointmentStatus are modelled.
- RpcLoginUser.LoginUser: does not model the request metadata (client address and user agent) in the response, because it comes from the transport.
- RpcCreateUser.CreateUser, RpcUpdateUserName.UpdateUserName, RpcLoginUser.LoginUser: the human-readable status messages are not modelled; the status carries the store error.
- ApiUsers.ListUsers, ApiUsers.ListUsersAsWritten, ApiAppointments.UpdateAppointmentStatus, ApiAppointments.GetAppointmentByID, ApiAppointments.GetAppointmentByQRCode: the 400 body for a failed binding is a fixed stand-in error, because gin's validation messages are not modelled; the status code is.
- ApiUsers.ListUsers: is the corrected handler. It uses ApiUsers.ListUsersPage and answers 400 for a page beyond the int32 range. ApiUsers.ListUsersAsWritten is the code as written, which sends the wrapped offset to the store; see Findings.

## Findings

| source | as written | input that shows it | evidently intended | confidence | as-written member | corrected member |
|---|---|---|---|---|---|---|
| backend/api/users.go:202 | `Offset: (req.PageID - 1) * req.PageSize` is computed in int32 and wraps around | page_id=21474838, page_size=100 passes binding and gives offset −2147483596 | the offset of page p is (p − 1)·page_size ≥ 0, and a page whose offset does not fit is refused | medium, not executed | ApiUsers.ListUsersOffsetOverflows | ApiUsers.ListUsers |

=== FILE: api_appointments.dfy ===
/**
 * The REST appointment handlers that build or classify anything:
 * `createAppointment` (status defaulting), `updateAppointmentStatus` (status
 * domain) and the two lookups, `getAppointmentByID` and `getAppointmentByQRCode`.
 */
module ApiAppointments {
  import opened GoTypes
  import opened Errors
  import opened Http

  /** The appointment row, reduced to the fields the handlers set or read. */
  datatype Appointment = Appointment(id: Int32, visitorId: Int32, hostId: Int32, status: NullString, qrCode: NullString)

  /** A bound `createAppointmentRequest`; the date and times pass through untouched. */
  datatype CreateAppointmentRequest = CreateAppointmentRequest(
    visitorId: Int64,
    hostId: Int64,
    appointmentDate: Instant,
    startTime: Instant,
    endTime: Instant,
    status: Option<string>,
    qrCode: string)

  datatype CreateAppointmentParams = CreateAppointmentParams(
    visitorId: Int32,
    hostId: Int32,
    appointmentDate: Instant,
    startTime: Instant,
    endTime: Instant,
    status: NullString,
    qrCode: NullString)

  const StatusPending: string := "pending"

  /** The statuses `updateAppointmentStatus` binds (`oneof=pending ongoing cancelled completed`). */
  const AppointmentStatuses: set<string> := {"pending", "ongoing", "cancelled", "completed"}

  /** The insert `createAppointment` issues. */
  function CreateAppointmentArgs(req: CreateAppointmentRequest): (arg: CreateAppointmentParams)
    // the ids are narrowed to int32
    ensures Wrap32(req.visitorId) == arg.visitorId && Wrap32(req.hostId) == arg.hostId
    ensures arg.appointmentDate == req.appointmentDate && arg.startTime == req.startTime && arg.endTime == req.endTime
    // a status is always stored: the request's verbatim, or "pending" when it has none
    ensures arg.status.valid
    ensures req.status.None? ==> arg.status.str == StatusPending
    ensures req.status.Some? ==> arg.status.str == req.status.value
    ensures arg.qrCode == NullString(req.qrCode, true)
  {
    var arg := CreateAppointmentParams(
      Wrap32(req.visitorId), Wrap32(req.hostId),
      req.appointmentDate, req.startTime, req.endTime,
      NullString(StatusPending, true),
      NullString(req.qrCode, true));
    if req.status.Some? then arg.(status := NullString(req.status.value, true)) else arg
  }

  /**
   * Unlike the status update, creation does not restrict the status: any string
   * the client sends is stored, even one the update would refuse to bind.
   */
  lemma CreateAcceptsAnyStatus(req: CreateAppointmentRequest, s: string, id: Int64)
    requires req.status == Some(s) && s !in AppointmentStatuses
    ensures CreateAppointmentArgs(req).status == NullString(s, true)
    ensures BindUpdateAppointmentStatus(UpdateStatusBody(Some(id), Some(s))).None?
  {
  }

  /** `createAppointment`; `createAppointment` stands for the store's `CreateAppointment`. */
  function CreateAppointment(
    bound: Result<CreateAppointmentRequest, Error>,
    createAppointment: CreateAppointmentParams -> Result<Appointment, Error>): (r: Handled<CreateAppointmentParams, Appointment>)
    ensures r.storeCall.None? <==> bound.Err?
    ensures bound.Err? ==> r.response == Response(StatusBadRequest, ErrorJson(bound.error))
    ensures bound.Ok? ==>
              && r.storeCall == Some(CreateAppointmentArgs(bound.value))
              && match createAppointment(r.storeCall.value)
                 case Ok(a) => r.response == Response(StatusOK, Json(a))
                 case Err(e) => r.response == Response(StatusInternalServerError, ErrorJson(e))
  {
    match bound
    case Err(e) => Handled(None, Response(StatusBadRequest, ErrorJson(e)))
    case Ok(req) =>
      var arg := CreateAppointmentArgs(req);
      Handled(Some(arg),
        match createAppointment(arg)
        case Err(e) => Response(StatusInternalServerError, ErrorJson(e))
        case Ok(a) => Response(StatusOK, Json(a)))
  }

  // ---------------------------------------------------------------------------
  // updateAppointmentStatus
  // ---------------------------------------------------------------------------

  /** The JSON body as sent: `id` and `status`, both possibly absent. */
  datatype UpdateStatusBody = UpdateStatusBody(id: Option<Int64>, status: Option<string>)

  datatype UpdateAppointmentStatusParams = UpdateAppointmentStatusParams(id: Int32, status: NullString)

  /** The binding rules of `updateAppointmentStatusRequest`: an id of at least 1 and a status from the fixed set. */
  function BindUpdateAppointmentStatus(body: UpdateStatusBody): (r: Option<UpdateAppointmentStatusParams>)
    ensures r.Some? <==> body.id.Some? && body.id.value >= 1 && body.status.Some? && body.status.value in AppointmentStatuses
    ensures r.Some? ==> r.value.status == NullString(body.status.value, true) && r.value.id == Wrap32(body.id.value)
  {
    if body.id.Some? && body.id.value >= 1 && body.status.Some? && body.status.value in AppointmentStatuses
    then Some(UpdateAppointmentStatusParams(Wrap32(body.id.value), NullString(body.status.value, true)))
    else None
  }

  const NoAppointmentWithId: Error := Failure("no appointment found with this ID")
  const NoAppointmentForQrCode: Error := Failure("no appointment found for this QR code")

  /** `updateAppointmentStatus`; `update` stands for the store's `UpdateAppointmentStatus`. */
  function UpdateAppointmentStatus(
    body: UpdateStatusBody,
    update: UpdateAppointmentStatusParams -> Result<Appointment, Error>): (r: Handled<UpdateAppointmentStatusParams, Appointment>)
    // a body that does not bind never reaches the store
    ensures r.storeCall.None? <==> BindUpdateAppointmentStatus(body).None?
    ensures r.storeCall.None? ==> r.response.status == StatusBadRequest
    // only the four statuses ever reach the store
    ensures r.storeCall.Some? ==>
              && r.storeCall == BindUpdateAppointmentStatus(body)
              && r.storeCall.value.status.str in AppointmentStatuses
              && match update(r.storeCall.value)
                 case Ok(a) => r.response == Response(StatusOK, Json(a))
                 case Err(e) => r.response == RowFailure(e, NoAppointmentWithId)
  {
    match BindUpdateAppointmentStatus(body)
    case None => Handled(None, Response(StatusBadRequest, ErrorJson(Failure("invalid request body"))))
    case Some(arg) =>
      Handled(Some(arg),
        match update(arg)
        case Err(e) => RowFailure(e, NoAppointmentWithId)
        case Ok(a) => Response(StatusOK, Json(a)))
  }

  // ---------------------------------------------------------------------------
  // Lookups
  // ---------------------------------------------------------------------------

  /** `getAppointmentByID`: the uri id must be at least 1; a missing row is 404 with the store's error. */
  function GetAppointmentByID(id: Int64, get: Int32 -> Result<Appointment, Error>): (r: Handled<Int32, Appointment>)
    // ids below 1 never reach the store
    ensures r.storeCall.None? <==> id < 1
    ensures id < 1 ==> r.response.status == StatusBadRequest
    ensures id >= 1 ==>
              && r.storeCall == Some(Wrap32(id))
              && match get(Wrap32(id))
                 case Ok(a) => r.response == Response(StatusOK, Json(a))
                 case Err(e) => r.response == RowFailure(e, e)
  {
    if id < 1 then Handled(None, Response(StatusBadRequest, ErrorJson(Failure("invalid id"))))
    else
      Handled(Some(Wrap32(id)),
        match get(Wrap32(id))
        case Err(e) => RowFailure(e, e)
        case Ok(a) => Response(StatusOK, Json(a)))
  }

  /** `getAppointmentByQRCode`: the code must be present; the lookup is on a non-NULL code. */
  function GetAppointmentByQRCode(qrCode: string, get: NullString -> Result<Appointment, Error>): (r: Handled<NullString, Appointment>)
    // an empty code never reaches the store
    ensures r.storeCall.None? <==> qrCode == ""
    ensures qrCode == "" ==> r.response.status == StatusBadRequest
    ensures qrCode != "" ==>
              && r.storeCall == Some(NullString(qrCode, true))
              && match get(NullString(qrCode, true))
                 case Ok(a) => r.response == Response(StatusOK, Json(a))
                 case Err(e) => r.response == RowFailure(e, NoAppointmentForQrCode)
  {
    if qrCode == "" then Handled(None, Response(StatusBadRequest, ErrorJson(Failure("qr_code is required"))))
    else
      Handled(Some(NullString(qrCode, true)),
        match get(NullString(qrCode, true))
        case Err(e) => RowFailure(e, NoAppointmentForQrCode)
        case Ok(a) => Response(StatusOK, Json(a)))
  }

  /**
   * What a 404 shows: the status update and the QR-code lookup answer with their
   * own fixed message, never with the store's error, while the lookup by id
   * shows `sql.ErrNoRows` itself.
   */
  lemma NotFoundBodies(
    body: UpdateStatusBody,
    update: UpdateAppointmentStatusParams -> Result<Appointment, Error>,
    id: Int64,
    getById: Int32 -> Result<Appointment, Error>,
    qrCode: string,
    getByQrCode: NullString -> Result<Appointment, Error>)
    ensures UpdateAppointmentStatus(body, update).response.status == StatusNotFound ==>
              UpdateAppointmentStatus(body, update).response.body == ErrorJson(NoAppointmentWithId)
    ensures GetAppointmentByQRCode(qrCode, getByQrCode).response.status == StatusNotFound ==>
              GetAppointmentByQRCode(qrCode, getByQrCode).response.body == ErrorJson(NoAppointmentForQrCode)
    ensures GetAppointmentByID(id, getById).response.status == StatusNotFound ==>
              GetAppointmentByID(id, getById).response.body == ErrorJson(NoRows)
  {
  }

  /**
   * The 404 mapping compares the error itself with `sql.ErrNoRows`, so a
   * wrapped "no rows" is answered 500, by the status update and both lookups alike.
   */
  lemma WrappedNoRowsIsServerError(id: Int64, status: string, qrCode: string, ctx: string)
    requires id >= 1 && status in AppointmentStatuses && qrCode != ""
    ensures UpdateAppointmentStatus(UpdateStatusBody(Some(id), Some(status)), _ => Err(Wrapped(ctx, NoRows))).response.status
              == StatusInternalServerError
    ensures GetAppointmentByID(id, _ => Err(Wrapped(ctx, NoRows))).response.status == StatusInternalServerError
    ensures GetAppointmentByQRCode(qrCode, _ => Err(Wrapped(ctx, NoRows))).response.status == StatusInternalServerError
    // the bare error is the one that gives 404
    ensures GetAppointmentByQRCode(qrCode, _ => Err(NoRows)).response.status == StatusNotFound
  {
  }
}

=== FILE: api_users.dfy ===
/**
 * The REST user handlers: `createUser` (which also seeds the new user's weekly
 * availability), `signupUser` and `listUsers`.
 *
 * Request binding (gin's `required`, `e164`, `oneof` rules on JSON bodies) is
 * not modelled for the create handlers: the request arrives already bound, or
 * as the binding error. The query rules of `listUsers` are modelled.
 */
module ApiUsers {
  import opened GoTypes
  import opened Errors
  import opened Http
  import Db

  datatype CreateUserRequest = CreateUserRequest(phoneNumber: string, firstName: string, lastName: string, role: string)

  /** `db.CreateUserParams` for a bound request; an empty role is stored as NULL. */
  function CreateUserParamsOf(req: CreateUserRequest): (p: Db.CreateUserParams)
    ensures p.phoneNumber == req.phoneNumber && p.firstName == req.firstName && p.lastName == req.lastName
    ensures p.role.valid <==> req.role != ""
    ensures p.role.str == req.role
  {
    Db.CreateUserParams(req.phoneNumber, req.firstName, req.lastName, OptionalString(req.role))
  }

  /** The response to a failed user insert: 403 for a duplicate, 500 otherwise. */
  function CreateUserFailure(e: Error): (r: Response<Db.User>)
    ensures r.status == StatusForbidden <==> IsUniqueViolation(e)
    ensures r.status == StatusForbidden || r.status == StatusInternalServerError
    ensures r.body == ErrorJson(e)
  {
    if IsUniqueViolation(e) then Response(StatusForbidden, ErrorJson(e))
    else Response(StatusInternalServerError, ErrorJson(e))
  }

  // ---------------------------------------------------------------------------
  // The availability grid seeded by createUser
  // ---------------------------------------------------------------------------

  /** A time of day as `time.Parse("15:04:05", ...)` yields it, in seconds after midnight. */
  datatype ClockTime = ClockTime(seconds: int)

  /** `time.Parse("15:04:05", fmt.Sprintf("%02d:00:00", hour))` for an hour of the day. */
  function HourMark(hour: int): ClockTime
  {
    ClockTime(hour * 3600)
  }

  /** `db.CreateAvailabilitySlotParams`. */
  datatype SlotParams = SlotParams(userId: Int32, dayOfWeek: Int32, startTime: ClockTime, endTime: ClockTime)

  const FirstDay: int := 1
  const LastDay: int := 5
  const FirstHour: int := 9
  const EndHour: int := 18
  const SlotsPerDay: int := EndHour - FirstHour
  const GridSize: int := (LastDay - FirstDay + 1) * SlotsPerDay

  /** The one-hour slot of `userId` on `day` starting at `hour`:00. */
  function SlotAt(userId: Int32, day: Int32, hour: int): SlotParams
  {
    SlotParams(userId, day, HourMark(hour), HourMark(hour + 1))
  }

  /** The k-th slot in day-major, hour-minor order. */
  function GridSlot(userId: Int32, k: int): SlotParams
    requires 0 <= k < GridSize
  {
    SlotAt(userId, FirstDay + k / SlotsPerDay, FirstHour + k % SlotsPerDay)
  }

  /** The slots a new user gets: Monday to Friday (days 1..5), one-hour slots from 9:00 to 18:00. */
  function AvailabilityGrid(userId: Int32): seq<SlotParams>
  {
    seq(GridSize, k requires 0 <= k < GridSize => GridSlot(userId, k))
  }

  /** The k-th grid entry is the slot of day 1 + k / 9 at hour 9 + k % 9. */
  lemma GridSlotAt(userId: Int32, k: int)
    requires 0 <= k < GridSize
    ensures |AvailabilityGrid(userId)| == GridSize
    ensures AvailabilityGrid(userId)[k] == SlotAt(userId, FirstDay + k / SlotsPerDay, FirstHour + k % SlotsPerDay)
  {
  }

  lemma GridIndex(day: int, hour: int)
    requires FirstDay <= day <= LastDay && FirstHour <= hour < EndHour
    ensures 0 <= (day - FirstDay) * SlotsPerDay + (hour - FirstHour) < GridSize
    ensures ((day - FirstDay) * SlotsPerDay + (hour - FirstHour)) / SlotsPerDay == day - FirstDay
    ensures ((day - FirstDay) * SlotsPerDay + (hour - FirstHour)) % SlotsPerDay == hour - FirstHour
  {
  }

  /**
   * The grid has 45 slots, all of the given user, each exactly one hour long
   * and starting on the hour between 9:00 and 17:00 of a weekday 1..5; every
   * (day, hour) pair has its slot at position (day-1)*9 + (hour-9), so slots
   * run in day-major order without repetition.
   */
  lemma AvailabilityGridShape(userId: Int32)
    ensures |AvailabilityGrid(userId)| == 45
    ensures forall k :: 0 <= k < 45 ==>
              var s := AvailabilityGrid(userId)[k];
              && s.userId == userId
              && 1 <= s.dayOfWeek <= 5
              && 9 * 3600 <= s.startTime.seconds <= 17 * 3600
              && s.startTime.seconds % 3600 == 0
              && s.endTime.seconds == s.startTime.seconds + 3600
    ensures forall day: Int32, hour :: 1 <= day <= 5 && 9 <= hour <= 17 ==>
              AvailabilityGrid(userId)[(day - 1) * 9 + (hour - 9)] == SlotAt(userId, day, hour)
    ensures forall i, j :: 0 <= i < j < 45 ==>
              var a := AvailabilityGrid(userId)[i];
              var b := AvailabilityGrid(userId)[j];
              a.dayOfWeek < b.dayOfWeek || (a.dayOfWeek == b.dayOfWeek && a.startTime.seconds < b.startTime.seconds)
  {
    var g := AvailabilityGrid(userId);
    forall k | 0 <= k < 45
      ensures g[k].userId == userId && 1 <= g[k].dayOfWeek <= 5
      ensures 9 * 3600 <= g[k].startTime.seconds <= 17 * 3600 && g[k].startTime.seconds % 3600 == 0
      ensures g[k].endTime.seconds == g[k].startTime.seconds + 3600
    {
      GridSlotAt(userId, k);
    }
    forall day: Int32, hour | 1 <= day <= 5 && 9 <= hour <= 17
      ensures g[(day - 1) * 9 + (hour - 9)] == SlotAt(userId, day, hour)
    {
      GridIndex(day, hour);
      GridSlotAt(userId, (day - 1) * 9 + (hour - 9));
    }
    forall i, j | 0 <= i < j < 45
      ensures g[i].dayOfWeek < g[j].dayOfWeek || (g[i].dayOfWeek == g[j].dayOfWeek && g[i].startTime.seconds < g[j].startTime.seconds)
    {
      GridSlotAt(userId, i);
      GridSlotAt(userId, j);
      assert i / 9 <= j / 9;
      if i / 9 == j / 9 {
        assert i % 9 < j % 9;
      }
    }
  }


  /** What createUser did: the user insert it issued, the slot inserts it issued in order, and its response. */
  datatype CreateUserRun = CreateUserRun(userCall: Option<Db.CreateUserParams>, slotCalls: seq<SlotParams>, response: Response<Db.User>)

  /**
   * `createUser`. `createUser` and `createSlot` stand for the store's
   * `CreateUser` and `CreateAvailabilitySlot`; no transaction spans them.
   */
  method CreateUser(
    bound: Result<CreateUserRequest, Error>,
    createUser: Db.CreateUserParams -> Result<Db.User, Error>,
    createSlot: SlotParams -> Option<Error>) returns (run: CreateUserRun)
    // a request that does not bind touches nothing
    ensures bound.Err? ==> run == CreateUserRun(None, [], Response(StatusBadRequest, ErrorJson(bound.error)))
    ensures bound.Ok? ==> run.userCall == Some(CreateUserParamsOf(bound.value))
    // a failed insert seeds nothing
    ensures bound.Ok? && createUser(CreateUserParamsOf(bound.value)).Err? ==>
              run.slotCalls == [] && run.response == CreateUserFailure(createUser(CreateUserParamsOf(bound.value)).error)
    // after the insert: a prefix of the grid, stopping at the first failed slot
    ensures bound.Ok? && createUser(CreateUserParamsOf(bound.value)).Ok? ==>
              var user := createUser(CreateUserParamsOf(bound.value)).value;
              var grid := AvailabilityGrid(user.id);
              && 1 <= |run.slotCalls| <= |grid|
              && run.slotCalls == grid[..|run.slotCalls|]
              && (forall i :: 0 <= i < |run.slotCalls| - 1 ==> createSlot(run.slotCalls[i]).None?)
              && (run.response.status == StatusOK <==> forall i :: 0 <= i < |grid| ==> createSlot(grid[i]).None?)
              && (run.response.status == StatusOK ==> run.slotCalls == grid && run.response.body == Json(user))
              && (run.response.status != StatusOK ==>
                    var failed := createSlot(run.slotCalls[|run.slotCalls| - 1]);
                    && failed.Some?
                    && run.response == Response(StatusInternalServerError, ErrorJson(Wrapped("failed to create availability", failed.value))))
  {
    if bound.Err? {
      return CreateUserRun(None, [], Response(StatusBadRequest, ErrorJson(bound.error)));
    }
    var arg := CreateUserParamsOf(bound.value);
    var created := createUser(arg);
    if created.Err? {
      return CreateUserRun(Some(arg), [], CreateUserFailure(created.error));
    }
    var user := created.value;
    ghost var grid := AvailabilityGrid(user.id);
    var calls: seq<SlotParams> := [];
    var day := FirstDay;
    while day <= LastDay
      invariant FirstDay <= day <= LastDay + 1
      invariant |calls| == (day - FirstDay) * SlotsPerDay
      invariant calls == grid[..|calls|]
      invariant forall i :: 0 <= i < |calls| ==> createSlot(calls[i]).None?
    {
      var hour := FirstHour;
      while hour < EndHour
        invariant FirstHour <= hour <= EndHour
        invariant |calls| == (day - FirstDay) * SlotsPerDay + (hour - FirstHour)
        invariant calls == grid[..|calls|]
        invariant forall i :: 0 <= i < |calls| ==> createSlot(calls[i]).None?
      {
        var slot := SlotAt(user.id, day, hour);
        GridIndex(day, hour);
        assert slot == grid[|calls|];
        calls := calls + [slot];
        var err := createSlot(slot);
        if err.Some? {
          return CreateUserRun(Some(arg), calls,
            Response(StatusInternalServerError, ErrorJson(Wrapped("failed to create availability", err.value))));
        }
        hour := hour + 1;
      }
      day := day + 1;
    }
    assert calls == grid;
    return CreateUserRun(Some(arg), calls, Response(StatusOK, Json(user)));
  }

  /** `signupUser`: the same insert as createUser, answered with 201 and no availability. */
  function SignupUser(
    bound: Result<CreateUserRequest, Error>,
    createUser: Db.CreateUserParams -> Result<Db.User, Error>): (r: Handled<Db.CreateUserParams, Db.User>)
    // a request that does not bind never reaches the store
    ensures r.storeCall.None? <==> bound.Err?
    ensures bound.Err? ==> r.response == Response(StatusBadRequest, ErrorJson(bound.error))
    ensures bound.Ok? ==>
              && r.storeCall == Some(CreateUserParamsOf(bound.value))
              && match createUser(r.storeCall.value)
                 case Ok(user) => r.response == Response(StatusCreated, Json(user))
                 case Err(e) => r.response == CreateUserFailure(e)
  {
    match bound
    case Err(e) => Handled(None, Response(StatusBadRequest, ErrorJson(e)))
    case Ok(req) =>
      var arg := CreateUserParamsOf(req);
      Handled(Some(arg),
        match createUser(arg)
        case Err(e) => CreateUserFailure(e)
        case Ok(user) => Response(StatusCreated, Json(user)))
  }

  // ---------------------------------------------------------------------------
  // listUsers
  // ---------------------------------------------------------------------------

  datatype ListUsersParams = ListUsersParams(limit: Int32, offset: Int32)

  /** The query rules: `page_id` at least 1, `page_size` between 5 and 100. */
  predicate ListUsersQueryValid(pageId: Int32, pageSize: Int32) {
    pageId >= 1 && 5 <= pageSize <= 100
  }

  /** The offset as written: `(req.PageID - 1) * req.PageSize` evaluated in int32, which wraps. */
  function ListUsersOffsetAsWritten(pageId: Int32, pageSize: Int32): Int32
  {
    Wrap32((pageId - 1) * pageSize)
  }

  /**
   * A valid page far enough out makes the int32 product wrap, and the handler
   * as written hands the store a negative offset.
   */
  lemma ListUsersOffsetOverflows(listUsers: ListUsersParams -> Result<seq<Db.User>, Error>)
    ensures ListUsersQueryValid(21474838, 100)
    ensures ListUsersOffsetAsWritten(21474838, 100) == -2147483596
    ensures ListUsersAsWritten(21474838, 100, listUsers).storeCall == Some(ListUsersParams(100, -2147483596))
  {
  }

  /** Wherever the product fits in int32 the written offset is the intended one. */
  lemma ListUsersOffsetAgreesInRange(pageId: Int32, pageSize: Int32)
    requires ListUsersQueryValid(pageId, pageSize)
    requires (pageId - 1) * pageSize <= MaxInt32
    ensures ListUsersPage(pageId, pageSize) == Some(ListUsersParams(pageSize, ListUsersOffsetAsWritten(pageId, pageSize)))
  {
  }

  /**
   * The page to fetch, with the offset computed without wrap-around: skip the
   * `pageId - 1` earlier pages. A page whose offset does not fit the int32
   * parameter has no answer (None).
   */
  function ListUsersPage(pageId: Int32, pageSize: Int32): (p: Option<ListUsersParams>)
    requires ListUsersQueryValid(pageId, pageSize)
    ensures p.Some? <==> (pageId - 1) * pageSize <= MaxInt32
    // the page starts after the rows of the pageId - 1 earlier pages
    ensures p.Some? ==> p.value.limit == pageSize && p.value.offset == (pageId - 1) * pageSize && p.value.offset >= 0
  {
    var offset := (pageId - 1) * pageSize;
    if offset > MaxInt32 then None else Some(ListUsersParams(pageSize, offset))
  }

  /** Consecutive pages of one size tile the listing: each starts where the previous one ends. */
  lemma ListUsersPagesAdjacent(pageId: Int32, pageSize: Int32)
    requires ListUsersQueryValid(pageId, pageSize) && pageId < MaxInt32
    requires ListUsersPage(pageId + 1, pageSize).Some?
    ensures ListUsersPage(pageId, pageSize).Some?
    ensures ListUsersPage(pageId + 1, pageSize).value.offset ==
              ListUsersPage(pageId, pageSize).value.offset + ListUsersPage(pageId, pageSize).value.limit
  {
    assert pageId * pageSize == (pageId - 1) * pageSize + pageSize;
  }

  /** Answers a listing with the store's result: 200 with the users, 500 with the error. */
  function ListingResponse(listed: Result<seq<Db.User>, Error>): (r: Response<seq<Db.User>>)
    ensures r.status == StatusOK <==> listed.Ok?
    ensures listed.Ok? ==> r.body == Json(listed.value)
    ensures listed.Err? ==> r == Response(StatusInternalServerError, ErrorJson(listed.error))
  {
    match listed
    case Err(e) => Response(StatusInternalServerError, ErrorJson(e))
    case Ok(users) => Response(StatusOK, Json(users))
  }

  /**
   * `listUsers` as written: a query that passes the rules reaches the store
   * with limit `page_size` and the int32-wrapped offset.
   */
  function ListUsersAsWritten(
    pageId: Int32,
    pageSize: Int32,
    listUsers: ListUsersParams -> Result<seq<Db.User>, Error>): (r: Handled<ListUsersParams, seq<Db.User>>)
    ensures r.storeCall.None? <==> !ListUsersQueryValid(pageId, pageSize)
    ensures r.storeCall.None? ==> r.response.status == StatusBadRequest
    ensures r.storeCall.Some? ==>
              && r.storeCall.value.limit == pageSize
              && r.storeCall.value.offset == ListUsersOffsetAsWritten(pageId, pageSize)
              && r.response == ListingResponse(listUsers(r.storeCall.value))
  {
    if !ListUsersQueryValid(pageId, pageSize) then Handled(None, Response(StatusBadRequest, ErrorJson(Failure("invalid query"))))
    else
      var arg := ListUsersParams(pageSize, ListUsersOffsetAsWritten(pageId, pageSize));
      Handled(Some(arg), ListingResponse(listUsers(arg)))
  }

  /**
   * `listUsers` with the offset of ListUsersPage: an invalid query or a page
   * beyond the int32 offset range is a bad request and never reaches the store.
   */
  function ListUsers(
    pageId: Int32,
    pageSize: Int32,
    listUsers: ListUsersParams -> Result<seq<Db.User>, Error>): (r: Handled<ListUsersParams, seq<Db.User>>)
    ensures r.storeCall.None? <==> !ListUsersQueryValid(pageId, pageSize) || ListUsersPage(pageId, pageSize).None?
    ensures r.storeCall.None? ==> r.response.status == StatusBadRequest
    // the store only ever sees the intended, non-negative offset
    ensures r.storeCall.Some? ==>
              && ListUsersQueryValid(pageId, pageSize)
              && r.storeCall == ListUsersPage(pageId, pageSize)
              && r.storeCall.value.offset >= 0
              && r.response == ListingResponse(listUsers(r.storeCall.value))
  {
    if !ListUsersQueryValid(pageId, pageSize) then Handled(None, Response(StatusBadRequest, ErrorJson(Failure("invalid query"))))
    else
      match ListUsersPage(pageId, pageSize)
      case None => Handled(None, Response(StatusBadRequest, ErrorJson(Failure("page out of range"))))
      case Some(p) => Handled(Some(p), ListingResponse(listUsers(p)))
  }

  /**
   * The corrected handler behaves exactly as the code as written except on the
   * pages whose offset overflows int32, which it refuses instead of querying.
   */
  lemma ListUsersHandlersAgree(pageId: Int32, pageSize: Int32, listUsers: ListUsersParams -> Result<seq<Db.User>, Error>)
    ensures ListUsers(pageId, pageSize, listUsers) == ListUsersAsWritten(pageId, pageSize, listUsers) <==>
              !ListUsersQueryValid(pageId, pageSize) || (pageId - 1) * pageSize <= MaxInt32
  {
    if ListUsersQueryValid(pageId, pageSize) && (pageId - 1) * pageSize <= MaxInt32 {
      ListUsersOffsetAgreesInRange(pageId, pageSize);
    }
  }
}

=== FILE: converter.dfy ===
/**
 * `convertUserToProto`: the database row as the RPC layer returns it.
 */
module Converter {
  import opened GoTypes
  import Db

  /** `pb.User`. `createdAt` is a nullable timestamp message. */
  datatype ProtoUser = ProtoUser(
    id: Int64,
    phoneNumber: string,
    firstName: string,
    lastName: string,
    role: string,
    createdAt: Option<Instant>,
    appointmentsBooked: Int32,
    appointmentsHosted: Int32)

  function ConvertUserToProto(user: Db.User): (p: ProtoUser)
    // the id is widened, not changed
    ensures p.id == user.id
    // phone, names and role text are copied; the role's NULL flag is dropped
    ensures p.phoneNumber == user.phoneNumber
    ensures p.firstName == user.firstName && p.lastName == user.lastName
    ensures p.role == user.role.str
    // `appointments_booked` is filled from `appointments_visited`; the NULL flags of both counters are dropped
    ensures p.appointmentsBooked == user.appointmentsVisited.int32
    ensures p.appointmentsHosted == user.appointmentsHosted.int32
    ensures p.createdAt.None? <==> !user.createdAt.valid
    ensures p.createdAt.Some? ==> p.createdAt.value == user.createdAt.time
  {
    ProtoUser(
      user.id,
      user.phoneNumber,
      user.firstName,
      user.lastName,
      user.role.str,
      if user.createdAt.valid then Some(user.createdAt.time) else None,
      user.appointmentsVisited.int32,
      user.appointmentsHosted.int32)
  }

  /** What a client can see of a row: everything except the NULL flags of the role and counters. */
  predicate SameVisibleFields(a: Db.User, b: Db.User) {
    && a.id == b.id
    && a.phoneNumber == b.phoneNumber
    && a.firstName == b.firstName
    && a.lastName == b.lastName
    && a.role.str == b.role.str
    && a.createdAt.valid == b.createdAt.valid
    && (a.createdAt.valid ==> a.createdAt.time == b.createdAt.time)
    && a.appointmentsVisited.int32 == b.appointmentsVisited.int32
    && a.appointmentsHosted.int32 == b.appointmentsHosted.int32
  }

  /**
   * Two rows convert to the same message exactly when they agree on the visible
   * fields: the conversion keeps every field it copies and drops only the NULL
   * flags of role and counters, and the timestamp of a NULL `created_at`.
   */
  lemma ConvertKeepsVisibleFields(a: Db.User, b: Db.User)
    ensures ConvertUserToProto(a) == ConvertUserToProto(b) <==> SameVisibleFields(a, b)
  {
  }

  /** The NULL flag of the role is lost: a NULL role and an empty non-NULL role look the same. */
  lemma NullRoleIndistinguishable(u: Db.User)
    ensures ConvertUserToProto(u.(role := NullString("", false))) == ConvertUserToProto(u.(role := NullString("", true)))
  {
  }
}

=== FILE: errors.dfy ===
/**
 * The error values the backend produces and inspects. The handlers classify an
 * error by comparing it with `sql.ErrNoRows` (`err == sql.ErrNoRows`) or by a
 * type assertion to `*pq.Error`; neither looks through a wrapping error, so the
 * predicates below inspect only the outermost constructor.
 */
module Errors {

  datatype Error =
    | NoRows                                  // sql.ErrNoRows
    | PqError(codeName: string)               // *pq.Error, by its condition name (Code.Name())
    | Failure(msg: string)                    // any other error from a collaborator
    | Wrapped(context: string, inner: Error)  // fmt.Errorf("<context>: %w", inner)
    | Combined(txErr: Error, rbErr: Error)    // fmt.Errorf("tx error: %v, rollback error: %v", ...)

  const UniqueViolation: string := "unique_violation"

  /** `err == sql.ErrNoRows`. */
  predicate IsNoRows(e: Error) {
    e == NoRows
  }

  /** `pqErr, ok := err.(*pq.Error); ok && pqErr.Code.Name() == "unique_violation"`. */
  predicate IsUniqueViolation(e: Error) {
    e.PqError? && e.codeName == UniqueViolation
  }

  /** The error `e` mentions `inner` somewhere in its text or chain. */
  predicate Carries(e: Error, inner: Error)
    decreases e
  {
    e == inner
    || (e.Wrapped? && Carries(e.inner, inner))
    || (e.Combined? && (Carries(e.txErr, inner) || Carries(e.rbErr, inner)))
  }
}

=== FILE: gapi_status.dfy ===
/**
 * What the RPC handlers answer: a value, or a gRPC status. InvalidArgument
 * carries the list of field violations (`errdetails.BadRequest_FieldViolation`).
 */
module GapiStatus {
  import opened GoTypes
  import opened Errors
  import Validator

  datatype FieldViolation = FieldViolation(field: string, error: Validator.ValidationError)

  datatype RpcStatus =
    | InvalidArgument(violations: seq<FieldViolation>)
    | AlreadyExists(cause: Error)
    | NotFound
    | Internal(cause: Error)

  datatype RpcResult<+T> = RpcOk(value: T) | RpcErr(status: RpcStatus)

  /** What a handler did: the store call it issued, if any, and what it answered. */
  datatype Handled<+P, +T> = Handled(storeCall: Option<P>, response: RpcResult<T>)

  /** One `if err := val.X(...); err != nil { violations = append(violations, fieldViolation(field, err)) }`. */
  function Check(field: string, v: Validator.Verdict): (vs: seq<FieldViolation>)
    ensures |vs| <= 1
    ensures |vs| == 1 <==> v.Reject?
    ensures |vs| == 1 ==> vs[0] == FieldViolation(field, v.error)
  {
    if v.Reject? then [FieldViolation(field, v.error)] else []
  }

  /** The field names of a violation list, in order. */
  function Fields(vs: seq<FieldViolation>): (fs: seq<string>)
    ensures |fs| == |vs|
    ensures forall i :: 0 <= i < |vs| ==> fs[i] == vs[i].field
  {
    if |vs| == 0 then [] else [vs[0].field] + Fields(vs[1..])
  }

  lemma {:induction false} FieldsAppend(a: seq<FieldViolation>, b: seq<FieldViolation>)
    ensures Fields(a + b) == Fields(a) + Fields(b)
  {
    var l := Fields(a + b);
    var r := Fields(a) + Fields(b);
    assert |l| == |r|;
    forall i | 0 <= i < |l|
      ensures l[i] == r[i]
    {
      if i < |a| {
        assert (a + b)[i] == a[i];
      } else {
        assert (a + b)[i] == b[i - |a|];
      }
    }
  }

  /** The reference answer: the fields whose verdict (at the same position) is a rejection, in the order given. */
  function FailingFields(fields: seq<string>, verdicts: seq<Validator.Verdict>): (fs: seq<string>)
    requires |fields| == |verdicts|
    ensures forall f :: f in fs <==> exists k :: 0 <= k < |fields| && fields[k] == f && verdicts[k].Reject?
    ensures |fs| == 0 <==> forall k :: 0 <= k < |verdicts| ==> verdicts[k].Accept?
    decreases |fields|
  {
    if |fields| == 0 then []
    else
      var rest := FailingFields(fields[1..], verdicts[1..]);
      assert forall k :: 1 <= k < |fields| ==> fields[k] == fields[1..][k - 1] && verdicts[k] == verdicts[1..][k - 1];
      (if verdicts[0].Reject? then [fields[0]] else []) + rest
  }

  /** A field named once in the list is reported exactly when its own verdict rejects. */
  lemma FieldReportedAt(fields: seq<string>, verdicts: seq<Validator.Verdict>, k: int)
    requires |fields| == |verdicts| && 0 <= k < |fields|
    requires forall j :: 0 <= j < |fields| && j != k ==> fields[j] != fields[k]
    ensures fields[k] in FailingFields(fields, verdicts) <==> verdicts[k].Reject?
  {
  }

  /** No field name occurs twice. */
  predicate DistinctFields(fields: seq<string>) {
    forall i, j :: 0 <= i < j < |fields| ==> fields[i] != fields[j]
  }

  /** With distinct field names, each field is reported exactly when its own verdict rejects. */
  lemma DistinctFieldsReported(fields: seq<string>, verdicts: seq<Validator.Verdict>)
    requires |fields| == |verdicts| && DistinctFields(fields)
    ensures forall k :: 0 <= k < |fields| ==> (fields[k] in FailingFields(fields, verdicts) <==> verdicts[k].Reject?)
  {
    forall k | 0 <= k < |fields|
      ensures fields[k] in FailingFields(fields, verdicts) <==> verdicts[k].Reject?
    {
      FieldReportedAt(fields, verdicts, k);
    }
  }

  /**
   * Validation as every handler writes it: visit the fields in order and
   * append one violation for each field whose validator rejects.
   */
  function ValidateFields(fields: seq<string>, verdicts: seq<Validator.Verdict>): (vs: seq<FieldViolation>)
    requires |fields| == |verdicts|
    ensures Fields(vs) == FailingFields(fields, verdicts)
    decreases |fields|
  {
    if |fields| == 0 then []
    else
      var first := Check(fields[0], verdicts[0]);
      var rest := ValidateFields(fields[1..], verdicts[1..]);
      FieldsAppend(first, rest);
      first + rest
  }

  /** The violation names a field whose validator (at the same position) rejected with exactly its error. */
  predicate CarriesItsError(fields: seq<string>, verdicts: seq<Validator.Verdict>, v: FieldViolation)
    requires |fields| == |verdicts|
  {
    exists k :: 0 <= k < |fields| && fields[k] == v.field && verdicts[k] == Validator.Reject(v.error)
  }

  /** Each violation carries the error its own field's validator returned. */
  lemma {:induction false} ViolationErrors(fields: seq<string>, verdicts: seq<Validator.Verdict>)
    requires |fields| == |verdicts|
    ensures forall i :: 0 <= i < |ValidateFields(fields, verdicts)| ==> CarriesItsError(fields, verdicts, ValidateFields(fields, verdicts)[i])
    decreases |fields|
  {
    if |fields| > 0 {
      ViolationErrors(fields[1..], verdicts[1..]);
      var first := Check(fields[0], verdicts[0]);
      var rest := ValidateFields(fields[1..], verdicts[1..]);
      var vs := ValidateFields(fields, verdicts);
      assert vs == first + rest;
      forall i | 0 <= i < |vs|
        ensures CarriesItsError(fields, verdicts, vs[i])
      {
        if i < |first| {
          assert fields[0] == vs[i].field && verdicts[0] == Validator.Reject(vs[i].error);
        } else {
          var v := rest[i - |first|];
          assert CarriesItsError(fields[1..], verdicts[1..], v);
          var k :| 0 <= k < |fields| - 1 && fields[1..][k] == v.field && verdicts[1..][k] == Validator.Reject(v.error);
          assert fields[k + 1] == vs[i].field && verdicts[k + 1] == Validator.Reject(vs[i].error);
        }
      }
    }
  }

  /** How a handler answers a failed lookup or update of one row: no row is NotFound, anything else Internal. */
  function RowError(e: Error): (s: RpcStatus)
    ensures s == NotFound <==> IsNoRows(e)
    ensures s != NotFound ==> s == Internal(e)
  {
    if IsNoRows(e) then NotFound else Internal(e)
  }
}

=== FILE: gotypes.dfy ===
/**
 * The Go value types the backend works with: fixed-width integers (with Go's
 * wrap-around conversions), the `database/sql` null wrappers, byte strings and
 * the UTF-8 length that Go's `len` reports for a string.
 */
module GoTypes {

  datatype Option<+T> = None | Some(value: T)

  /** A value or an error, as Go's `(T, error)` pairs. */
  datatype Result<+T, +E> = Ok(value: T) | Err(error: E)

  const MinInt32: int := -0x8000_0000
  const MaxInt32: int := 0x7fff_ffff
  const MinInt64: int := -0x8000_0000_0000_0000
  const MaxInt64: int := 0x7fff_ffff_ffff_ffff

  type Int32 = x: int | -0x8000_0000 <= x <= 0x7fff_ffff
  type Int64 = x: int | -0x8000_0000_0000_0000 <= x <= 0x7fff_ffff_ffff_ffff

  type Byte = x: int | 0 <= x < 256
  type Bytes = seq<Byte>

  /** Go's `int32(x)` conversion: keeps the low 32 bits, two's complement. */
  function Wrap32(x: int): (r: Int32)
    ensures (r - x) % 0x1_0000_0000 == 0
    ensures MinInt32 <= x <= MaxInt32 ==> r == x
  {
    var m := x % 0x1_0000_0000;
    if m <= MaxInt32 then m else m - 0x1_0000_0000
  }

  /** Narrowing a value 2^32 above an int32 gives back that int32. */
  lemma Wrap32Shift(id: Int32, n: int)
    requires n == id + 0x1_0000_0000
    ensures Wrap32(n) == id
  {
    var r := Wrap32(n);
    assert (r - id) % 0x1_0000_0000 == 0;
  }

  /** `time.Time`, kept abstract: only identity matters to the model. */
  datatype Instant = Instant(unixNanos: int)

  /** `sql.NullString`: `valid` false means SQL NULL. */
  datatype NullString = NullString(str: string, valid: bool)

  /** `sql.NullInt32`. */
  datatype NullInt32 = NullInt32(int32: Int32, valid: bool)

  /** `sql.NullTime`. */
  datatype NullTime = NullTime(time: Instant, valid: bool)

  /** The `sql.NullString` a handler builds from an optional request string: NULL when empty. */
  function OptionalString(s: string): (n: NullString)
    ensures n.str == s
    ensures n.valid <==> |s| > 0
  {
    NullString(s, s != "")
  }

  predicate IsDigit(c: char) {
    '0' <= c <= '9'
  }

  predicate IsAscii(c: char) {
    (c as int) < 0x80
  }

  /** Number of bytes in the UTF-8 encoding of one rune. */
  function RuneLen(c: char): (n: nat)
    ensures 1 <= n <= 4
    ensures n == 1 <==> IsAscii(c)
  {
    var v := c as int;
    if v < 0x80 then 1 else if v < 0x800 then 2 else if v < 0x1_0000 then 3 else 4
  }

  /** Go's `len(s)` for a string: the length of its UTF-8 encoding in bytes. */
  function Utf8Len(s: string): nat
  {
    if |s| == 0 then 0 else RuneLen(s[0]) + Utf8Len(s[1..])
  }

  /** A string is never shorter in bytes than in runes, and the two agree exactly on ASCII text. */
  lemma {:induction false} Utf8LenVersusRunes(s: string)
    ensures |s| <= Utf8Len(s)
    ensures Utf8Len(s) == |s| <==> forall i :: 0 <= i < |s| ==> IsAscii(s[i])
  {
    if |s| > 0 {
      Utf8LenVersusRunes(s[1..]);
      assert forall i :: 1 <= i < |s| ==> s[i] == s[1..][i - 1];
    }
  }
}

=== FILE: http.dfy ===
/**
 * What the REST handlers write back: a status code and a JSON body, either the
 * value or `{"error": ...}`.
 */
module Http {
  import opened GoTypes
  import opened Errors

  const StatusOK: int := 200
  const StatusCreated: int := 201
  const StatusBadRequest: int := 400
  const StatusForbidden: int := 403
  const StatusNotFound: int := 404
  const StatusInternalServerError: int := 500

  datatype Body<+T> = Json(value: T) | ErrorJson(error: Error)

  datatype Response<+T> = Response(status: int, body: Body<T>)

  /** What a handler did: the store call it issued, if any, and the response it wrote. */
  datatype Handled<+P, +T> = Handled(storeCall: Option<P>, response: Response<T>)

  /** The status of a failed lookup or update of one row: 404 for "no rows", 500 otherwise. */
  function RowFailureStatus(e: Error): (code: int)
    ensures code == StatusNotFound <==> IsNoRows(e)
    ensures code == StatusNotFound || code == StatusInternalServerError
  {
    if IsNoRows(e) then StatusNotFound else StatusInternalServerError
  }

  /**
   * The answer to a failed lookup or update of one row: 404 for "no rows"
   * (with `notFoundBody` as the error shown), 500 with the error itself otherwise.
   */
  function RowFailure<T>(e: Error, notFoundBody: Error): (r: Response<T>)
    ensures r.status == StatusNotFound <==> IsNoRows(e)
    ensures r.status == StatusNotFound || r.status == StatusInternalServerError
    // a 404 never shows the store's error unless the handler chose it as its not-found body
    ensures r.status == StatusNotFound ==> r.body == ErrorJson(notFoundBody)
    ensures r.status == StatusInternalServerError ==> r.body == ErrorJson(e)
  {
    Response(RowFailureStatus(e), ErrorJson(if IsNoRows(e) then notFoundBody else e))
  }
}

=== FILE: rpc_create_user.dfy ===
/**
 * The CreateUser RPC: validate the request, create the user through
 * `CreateUserTx`, and have the `AfterCreate` hook schedule the
 * verification-email task.
 */
module RpcCreateUser {
  import opened GoTypes
  import opened Errors
  import opened Validator
  import opened GapiStatus
  import Db
  import Strconv
  import Converter
  import Worker

  datatype CreateUserRequest = CreateUserRequest(phoneNumber: string, firstName: string, lastName: string, role: string)

  /** The fields in the order the validation visits them. */
  const FieldOrder: seq<string> := ["phone_number", "first_name", "last_name", "role"]

  /** The validators' verdicts on the request, one per field of FieldOrder. */
  function Verdicts(req: CreateUserRequest): (vs: seq<Verdict>)
    ensures |vs| == |FieldOrder|
  {
    [ValidatePhoneNumber(req.phoneNumber), ValidateFirstName(req.firstName), ValidateLastName(req.lastName), ValidateRole(req.role)]
  }

  /** `validateCreateUserRequest`: one violation per failing field, in field order, each with its validator's error. */
  function ValidateCreateUserRequest(req: CreateUserRequest): (vs: seq<FieldViolation>)
    ensures Fields(vs) == FailingFields(FieldOrder, Verdicts(req))
    ensures forall i :: 0 <= i < |vs| ==> CarriesItsError(FieldOrder, Verdicts(req), vs[i])
  {
    ViolationErrors(FieldOrder, Verdicts(req));
    ValidateFields(FieldOrder, Verdicts(req))
  }

  /** Which fields are reported: each exactly when its value lacks the documented shape. */
  lemma CreateUserFieldsReported(req: CreateUserRequest)
    ensures "phone_number" in Fields(ValidateCreateUserRequest(req)) <==> !PhoneNumberShape(req.phoneNumber)
    ensures "first_name" in Fields(ValidateCreateUserRequest(req)) <==> !NameShape(req.firstName)
    ensures "last_name" in Fields(ValidateCreateUserRequest(req)) <==> !NameShape(req.lastName)
    ensures "role" in Fields(ValidateCreateUserRequest(req)) <==> req.role !in Roles
  {
    DistinctFieldsReported(FieldOrder, Verdicts(req));
    var verdicts := Verdicts(req);
    assert FieldOrder[0] == "phone_number" && FieldOrder[1] == "first_name";
    assert FieldOrder[2] == "last_name" && FieldOrder[3] == "role";
  }

  /** The request passes validation exactly when every field has its documented shape. */
  lemma CreateUserRequestValidIff(req: CreateUserRequest)
    ensures |ValidateCreateUserRequest(req)| == 0 <==>
              && PhoneNumberShape(req.phoneNumber)
              && NameShape(req.firstName)
              && NameShape(req.lastName)
              && req.role in Roles
  {
    var vs := ValidateCreateUserRequest(req);
    var verdicts := Verdicts(req);
    assert |Fields(vs)| == |vs|;
    assert (forall k :: 0 <= k < |verdicts| ==> verdicts[k].Accept?) <==>
             verdicts[0].Accept? && verdicts[1].Accept? && verdicts[2].Accept? && verdicts[3].Accept?;
  }

  /** `db.CreateUserTxParams` built from a valid request; an empty role is stored as NULL. */
  function CreateUserArgs(req: CreateUserRequest): (arg: Db.CreateUserTxParams)
    // phone and names pass through unchanged
    ensures arg.createUserParams.phoneNumber == req.phoneNumber
    ensures arg.createUserParams.firstName == req.firstName && arg.createUserParams.lastName == req.lastName
    // an empty role is stored as NULL
    ensures arg.createUserParams.role.valid <==> req.role != ""
    ensures arg.createUserParams.role.str == req.role
  {
    Db.CreateUserTxParams(Db.CreateUserParams(req.phoneNumber, req.firstName, req.lastName, OptionalString(req.role)))
  }

  /** How CreateUser answers a store error: a unique violation is AlreadyExists, anything else Internal. */
  function CreateUserError(e: Error): (s: RpcStatus)
    ensures s.AlreadyExists? <==> IsUniqueViolation(e)
    ensures s == AlreadyExists(e) || s == Internal(e)
  {
    if IsUniqueViolation(e) then AlreadyExists(e) else Internal(e)
  }

  /** `CreateUser`. `createUserTx` stands for the store's `CreateUserTx`. */
  function CreateUser(
    req: CreateUserRequest,
    createUserTx: Db.CreateUserTxParams -> Result<Db.CreateUserTxResult, Error>): (r: Handled<Db.CreateUserTxParams, Converter.ProtoUser>)
    // invalid requests never reach the store
    ensures r.storeCall.None? <==> |ValidateCreateUserRequest(req)| > 0
    ensures r.storeCall.None? ==> r.response == RpcErr(InvalidArgument(ValidateCreateUserRequest(req)))
    ensures r.storeCall.Some? ==> r.storeCall.value == CreateUserArgs(req)
    ensures r.storeCall.Some? ==>
              match createUserTx(r.storeCall.value)
              case Ok(res) => r.response == RpcOk(Converter.ConvertUserToProto(res.user))
              case Err(e) => r.response == RpcErr(CreateUserError(e))
  {
    var violations := ValidateCreateUserRequest(req);
    if |violations| > 0 then Handled(None, RpcErr(InvalidArgument(violations)))
    else
      var arg := CreateUserArgs(req);
      Handled(Some(arg),
        match createUserTx(arg)
        case Err(e) => RpcErr(CreateUserError(e))
        case Ok(res) => RpcOk(Converter.ConvertUserToProto(res.user)))
  }

  /** The three ways CreateUser can end, each characterised by the request and the store's answer alone. */
  lemma CreateUserOutcomes(req: CreateUserRequest, createUserTx: Db.CreateUserTxParams -> Result<Db.CreateUserTxResult, Error>)
    ensures CreateUser(req, createUserTx).response.RpcOk? <==>
              |ValidateCreateUserRequest(req)| == 0 && createUserTx(CreateUserArgs(req)).Ok?
    ensures CreateUser(req, createUserTx).response.RpcErr? && CreateUser(req, createUserTx).response.status.AlreadyExists? <==>
              |ValidateCreateUserRequest(req)| == 0 && createUserTx(CreateUserArgs(req)).Err?
              && IsUniqueViolation(createUserTx(CreateUserArgs(req)).error)
    ensures CreateUser(req, createUserTx).response.RpcErr? && CreateUser(req, createUserTx).response.status.InvalidArgument? <==>
              !(PhoneNumberShape(req.phoneNumber) && NameShape(req.firstName) && NameShape(req.lastName) && req.role in Roles)
  {
    var r := CreateUser(req, createUserTx);
    CreateUserRequestValidIff(req);
    if |ValidateCreateUserRequest(req)| > 0 {
      assert r.response == RpcErr(InvalidArgument(ValidateCreateUserRequest(req)));
    } else {
      assert r.storeCall == Some(CreateUserArgs(req));
    }
  }

  /**
   * The classification is a type assertion on the error itself, so a unique
   * violation that reaches the handler wrapped (by the hook's context, or
   * combined with a rollback failure) is reported as Internal.
   */
  lemma WrappedUniqueViolationIsInternal(req: CreateUserRequest, ctx: string, rbErr: Error)
    requires |ValidateCreateUserRequest(req)| == 0
    ensures CreateUser(req, _ => Err(Wrapped(ctx, PqError(UniqueViolation)))).response.status.Internal?
    ensures CreateUser(req, _ => Err(Combined(PqError(UniqueViolation), rbErr))).response.status.Internal?
  {
    var wrapped := Wrapped(ctx, PqError(UniqueViolation));
    var combined := Combined(PqError(UniqueViolation), rbErr);
    assert !IsUniqueViolation(wrapped) && !IsUniqueViolation(combined);
    assert CreateUserError(wrapped) == Internal(wrapped);
    assert CreateUserError(combined) == Internal(combined);
  }

  // ---------------------------------------------------------------------------
  // The AfterCreate hook
  // ---------------------------------------------------------------------------

  /** MaxRetry(10), ProcessIn(10 * time.Second), Queue(QueueCritical). */
  const VerifyEmailOptions: seq<Worker.TaskOption> :=
    [Worker.MaxRetry(10), Worker.ProcessIn(10 * Worker.Second), Worker.Queue(Worker.QueueCritical)]

  /** The task payload names the new user by `strconv.Itoa(int(user.ID))`. */
  function VerifyEmailPayload(user: Db.User): (p: Worker.PayloadSendVerifyEmail)
    // the worker's Atoi and int32 conversion recover the id exactly
    ensures Worker.PayloadUserId(p) == Some(user.id)
    // the id travels as its decimal string, exactly as strconv.Itoa writes it
    ensures p.userId == Strconv.Itoa(user.id)
  {
    Strconv.AtoiItoa(user.id);
    Worker.PayloadSendVerifyEmail(Strconv.Itoa(user.id))
  }

  /** The fixed options resolve to ten retries, a ten-second delay and the critical queue. */
  lemma VerifyEmailDelivery()
    ensures Worker.Resolve(VerifyEmailOptions) == Worker.Delivery(Some(10), Some(10 * Worker.Second), Some(Worker.QueueCritical))
  {
    var opts := VerifyEmailOptions;
    assert opts[..2] == [Worker.MaxRetry(10), Worker.ProcessIn(10 * Worker.Second)];
    assert opts[..2][..1] == [Worker.MaxRetry(10)];
    assert opts[..2][..1][..0] == [];
    assert Worker.Resolve(opts[..2][..1]) == Worker.Delivery(Some(10), None, None);
    assert Worker.Resolve(opts[..2]) == Worker.Delivery(Some(10), Some(10 * Worker.Second), None);
  }

  /** `AfterCreate`: distribute the send-verify-email task for the new user with the fixed options. */
  function AfterCreate(
    user: Db.User,
    marshal: Worker.PayloadSendVerifyEmail -> Result<Bytes, Error>,
    enqueue: Worker.Task -> Result<Worker.TaskInfo, Error>): (r: Worker.DistributeRun)
    ensures r.submitted.Some? <==> marshal(VerifyEmailPayload(user)).Ok?
    // the submitted task carries this user's encoded payload with the fixed options
    ensures r.submitted.Some? ==>
              r.submitted.value == Worker.Task(Worker.TaskSendVerifyEmail, marshal(VerifyEmailPayload(user)).value, VerifyEmailOptions)
    ensures r.submitted.Some? ==>
              Worker.Resolve(r.submitted.value.opts) == Worker.Delivery(Some(10), Some(10 * Worker.Second), Some(Worker.QueueCritical))
    // the hook reports success exactly when that task was enqueued
    ensures r.err.None? <==> r.submitted.Some? && enqueue(r.submitted.value).Ok?
  {
    VerifyEmailDelivery();
    Worker.DistributeTaskSendVerifyEmail(VerifyEmailPayload(user), VerifyEmailOptions, marshal, enqueue)
  }

  /**
   * A task the hook enqueued for `user`, once processed, reaches that same
   * user: it succeeds if the user exists, is dropped if the user is gone, and
   * is retried on any other lookup failure. This needs only that the JSON codec
   * reads back what it wrote.
   */
  lemma VerifyEmailTaskReachesUser(
    user: Db.User,
    marshal: Worker.PayloadSendVerifyEmail -> Result<Bytes, Error>,
    unmarshal: Bytes -> Result<Worker.PayloadSendVerifyEmail, Error>,
    enqueue: Worker.Task -> Result<Worker.TaskInfo, Error>,
    getUserById: Int32 -> Result<Db.User, Error>)
    requires marshal(VerifyEmailPayload(user)).Ok? ==>
               unmarshal(marshal(VerifyEmailPayload(user)).value) == Ok(VerifyEmailPayload(user))
    requires AfterCreate(user, marshal, enqueue).err.None?
    ensures
      var task := AfterCreate(user, marshal, enqueue).submitted.value;
      var outcome := Worker.ProcessTaskSendVerifyEmail(task, unmarshal, getUserById);
      && (getUserById(user.id).Ok? ==> outcome == Worker.Done)
      && (getUserById(user.id) == Err(NoRows) ==> outcome == Worker.SkipRetry)
      && (getUserById(user.id).Err? && !IsNoRows(getUserById(user.id).error) ==>
            outcome == Worker.Retry(Wrapped("failed to get user by ID", getUserById(user.id).error)))
  {
    var payload := VerifyEmailPayload(user);
    var task := AfterCreate(user, marshal, enqueue).submitted.value;
    assert task.payload == marshal(payload).value;
    assert unmarshal(task.payload) == Ok(payload);
    assert Worker.PayloadUserId(payload) == Some(user.id);
  }
}

=== FILE: rpc_login_user.dfy ===
/**
 * The LoginUser RPC: validate the phone number, then look the user up by it.
 */
module RpcLoginUser {
  import opened GoTypes
  import opened Errors
  import opened Validator
  import opened GapiStatus
  import Db
  import Converter

  datatype LoginUserRequest = LoginUserRequest(phoneNumber: string)

  /** `validateLoginUserRequest`: at most one violation, on the phone number. */
  function ValidateLoginUserRequest(req: LoginUserRequest): (vs: seq<FieldViolation>)
    ensures |vs| <= 1
    ensures |vs| == 0 <==> PhoneNumberShape(req.phoneNumber)
    ensures |vs| == 1 ==> vs[0].field == "phone_number" && Reject(vs[0].error) == ValidatePhoneNumber(req.phoneNumber)
  {
    Check("phone_number", ValidatePhoneNumber(req.phoneNumber))
  }

  /**
   * `LoginUser`. `getUserByPhone` stands for the store's `GetUserByPhone`. The
   * response's request metadata (client address, user agent) is not modelled.
   */
  function LoginUser(
    req: LoginUserRequest,
    getUserByPhone: string -> Result<Db.User, Error>): (r: Handled<string, Converter.ProtoUser>)
    ensures r.storeCall.None? <==> !PhoneNumberShape(req.phoneNumber)
    ensures r.storeCall.None? ==> r.response == RpcErr(InvalidArgument(ValidateLoginUserRequest(req)))
    ensures r.storeCall.Some? ==> r.storeCall.value == req.phoneNumber
    ensures r.storeCall.Some? ==>
              match getUserByPhone(req.phoneNumber)
              case Ok(user) => r.response == RpcOk(Converter.ConvertUserToProto(user))
              case Err(e) => r.response == RpcErr(RowError(e))
  {
    var violations := ValidateLoginUserRequest(req);
    if |violations| > 0 then Handled(None, RpcErr(InvalidArgument(violations)))
    else
      Handled(Some(req.phoneNumber),
        match getUserByPhone(req.phoneNumber)
        case Err(e) => RpcErr(RowError(e))
        case Ok(user) => RpcOk(Converter.ConvertUserToProto(user)))
  }
}

=== FILE: rpc_update_user_name.dfy ===
/**
 * The UpdateUserName RPC: a positive user id and optional names; an empty name
 * leaves that column unchanged (it is sent to the store as NULL).
 */
module RpcUpdateUserName {
  import opened GoTypes
  import opened Errors
  import opened Validator
  import opened GapiStatus
  import Db
  import Converter

  datatype UpdateUserNameRequest = UpdateUserNameRequest(userId: Int32, firstName: string, lastName: string)

  const FieldOrder: seq<string> := ["user_id", "first_name", "last_name"]

  /** A name is only validated when it is given. */
  function OptionalName(name: string, validate: string -> Verdict): Verdict
  {
    if name == "" then Accept else validate(name)
  }

  /** The verdicts on the request, one per field of FieldOrder. */
  function Verdicts(req: UpdateUserNameRequest): (vs: seq<Verdict>)
    ensures |vs| == |FieldOrder|
  {
    [ValidateID(req.userId), OptionalName(req.firstName, ValidateFirstName), OptionalName(req.lastName, ValidateLastName)]
  }

  /** `validateUpdateUserNameRequest`: one violation per failing field, in field order, each with its validator's error. */
  function ValidateUpdateUserNameRequest(req: UpdateUserNameRequest): (vs: seq<FieldViolation>)
    ensures Fields(vs) == FailingFields(FieldOrder, Verdicts(req))
    ensures forall i :: 0 <= i < |vs| ==> CarriesItsError(FieldOrder, Verdicts(req), vs[i])
  {
    ViolationErrors(FieldOrder, Verdicts(req));
    ValidateFields(FieldOrder, Verdicts(req))
  }

  /**
   * Which fields are reported: `user_id` exactly when it is not positive, and a
   * name exactly when it is given and not one to thirty ASCII letters.
   */
  lemma UpdateUserNameFieldsReported(req: UpdateUserNameRequest)
    ensures "user_id" in Fields(ValidateUpdateUserNameRequest(req)) <==> req.userId <= 0
    ensures "first_name" in Fields(ValidateUpdateUserNameRequest(req)) <==> req.firstName != "" && !NameShape(req.firstName)
    ensures "last_name" in Fields(ValidateUpdateUserNameRequest(req)) <==> req.lastName != "" && !NameShape(req.lastName)
  {
    DistinctFieldsReported(FieldOrder, Verdicts(req));
    assert FieldOrder[0] == "user_id" && FieldOrder[1] == "first_name" && FieldOrder[2] == "last_name";
  }

  /** The request passes validation exactly when the id is positive and each given name is one to thirty letters. */
  lemma UpdateUserNameValidIff(req: UpdateUserNameRequest)
    ensures |ValidateUpdateUserNameRequest(req)| == 0 <==>
              req.userId > 0 && (req.firstName == "" || NameShape(req.firstName)) && (req.lastName == "" || NameShape(req.lastName))
  {
    var vs := ValidateUpdateUserNameRequest(req);
    var verdicts := Verdicts(req);
    assert |Fields(vs)| == |vs|;
    assert (forall k :: 0 <= k < |verdicts| ==> verdicts[k].Accept?) <==>
             verdicts[0].Accept? && verdicts[1].Accept? && verdicts[2].Accept?;
  }

  /** `db.UpdateUserNameParams`: a name column is written only when the request gives a name. */
  function UpdateUserNameArgs(req: UpdateUserNameRequest): (arg: Db.UpdateUserNameParams)
    ensures arg.id == req.userId
    ensures arg.firstName.valid <==> req.firstName != ""
    ensures arg.lastName.valid <==> req.lastName != ""
    ensures arg.firstName.str == req.firstName && arg.lastName.str == req.lastName
  {
    Db.UpdateUserNameParams(req.userId, OptionalString(req.firstName), OptionalString(req.lastName))
  }

  /** `UpdateUserName`. `updateUserName` stands for the store's `UpdateUserName`. */
  function UpdateUserName(
    req: UpdateUserNameRequest,
    updateUserName: Db.UpdateUserNameParams -> Result<Db.User, Error>): (r: Handled<Db.UpdateUserNameParams, Converter.ProtoUser>)
    ensures r.storeCall.None? <==> |ValidateUpdateUserNameRequest(req)| > 0
    ensures r.storeCall.None? ==> r.response == RpcErr(InvalidArgument(ValidateUpdateUserNameRequest(req)))
    ensures r.storeCall.Some? ==> r.storeCall.value == UpdateUserNameArgs(req)
    ensures r.storeCall.Some? ==>
              match updateUserName(r.storeCall.value)
              case Ok(user) => r.response == RpcOk(Converter.ConvertUserToProto(user))
              case Err(e) => r.response == RpcErr(RowError(e))
  {
    var violations := ValidateUpdateUserNameRequest(req);
    if |violations| > 0 then Handled(None, RpcErr(InvalidArgument(violations)))
    else
      var arg := UpdateUserNameArgs(req);
      Handled(Some(arg),
        match updateUserName(arg)
        case Err(e) => RpcErr(RowError(e))
        case Ok(user) => RpcOk(Converter.ConvertUserToProto(user)))
  }

  /** A request with both names empty is valid for any positive id and updates no name column. */
  lemma EmptyNamesUpdateNothing(id: Int32, updateUserName: Db.UpdateUserNameParams -> Result<Db.User, Error>)
    requires id > 0
    ensures
      var r := UpdateUserName(UpdateUserNameRequest(id, "", ""), updateUserName);
      r.storeCall == Some(Db.UpdateUserNameParams(id, NullString("", false), NullString("", false)))
  {
    UpdateUserNameValidIff(UpdateUserNameRequest(id, "", ""));
  }
}

=== FILE: store.dfy ===
/**
 * The database layer: the `users` row, the parameters of the writes the
 * handlers issue, and `execTx`, which runs a unit of work inside a transaction.
 *
 * The database itself is outside the model. A `TxDriver` fixes in advance what
 * `BeginTx`, `Rollback` and `Commit` will answer, and the work function is a
 * parameter; `ExecTx` returns the result together with the trace of the
 * transaction steps it took.
 */
module Db {
  import opened GoTypes
  import opened Errors

  datatype User = User(
    id: Int32,
    phoneNumber: string,
    firstName: string,
    lastName: string,
    role: NullString,
    createdAt: NullTime,
    appointmentsVisited: NullInt32,
    appointmentsHosted: NullInt32)

  datatype CreateUserParams = CreateUserParams(
    phoneNumber: string,
    firstName: string,
    lastName: string,
    role: NullString)

  /**
   * `CreateUserTxParams` without its `AfterCreate` hook: the hook is modelled on
   * its own (RpcCreateUser.AfterCreate) because the body of `CreateUserTx`, which
   * decides when it runs, is not part of this model.
   */
  datatype CreateUserTxParams = CreateUserTxParams(createUserParams: CreateUserParams)

  datatype CreateUserTxResult = CreateUserTxResult(user: User)

  datatype UpdateUserNameParams = UpdateUserNameParams(id: Int32, firstName: NullString, lastName: NullString)

  // ---------------------------------------------------------------------------
  // execTx
  // ---------------------------------------------------------------------------

  type TxId = nat

  /** What a query object is bound to: the raw connection pool or one open transaction. */
  datatype Conn = RawDb | InTx(tx: TxId)

  /** `*Queries`, the generated query accessor. */
  datatype Queries = Queries(conn: Conn)

  /** The database's answers: the transaction `BeginTx` opens (or its error), then Rollback's and Commit's errors. */
  datatype TxDriver = TxDriver(begin: Result<TxId, Error>, rollbackErr: Option<Error>, commitErr: Option<Error>)

  /** The steps `execTx` takes: the transaction begun (None when BeginTx failed), and whether each later step failed. */
  datatype TxEvent =
    | Begin(began: Option<TxId>)
    | RunWork(q: Queries, failed: bool)
    | Rollback(ok: bool)
    | Commit(ok: bool)

  datatype TxRun = TxRun(events: seq<TxEvent>, result: Option<Error>)

  predicate RanWork(events: seq<TxEvent>) {
    exists i :: 0 <= i < |events| && events[i].RunWork?
  }

  predicate RolledBack(events: seq<TxEvent>) {
    exists i :: 0 <= i < |events| && events[i].Rollback?
  }

  predicate Committed(events: seq<TxEvent>) {
    exists i :: 0 <= i < |events| && events[i].Commit?
  }

  // The protocol a transaction follows, as an automaton over TxEvent.

  datatype TxPhase = Idle | Open(tx: TxId) | WorkDone(failed: bool) | Closed

  function Step(p: TxPhase, e: TxEvent): Option<TxPhase>
  {
    match (p, e)
    case (Idle, Begin(None)) => Some(Closed)
    case (Idle, Begin(Some(tx))) => Some(Open(tx))
    case (Open(tx), RunWork(q, failed)) => if q.conn == InTx(tx) then Some(WorkDone(failed)) else None
    case (WorkDone(true), Rollback(_)) => Some(Closed)
    case (WorkDone(false), Commit(_)) => Some(Closed)
    case _ => None
  }

  function Run(p: TxPhase, events: seq<TxEvent>): Option<TxPhase>
    decreases |events|
  {
    if |events| == 0 then Some(p)
    else match Step(p, events[0])
      case None => None
      case Some(p') => Run(p', events[1..])
  }

  /**
   * A complete, well-ordered transaction: begin; on success the work runs once
   * on an accessor bound to the transaction just begun; then rollback if the
   * work failed, commit if not.
   */
  predicate WellFormedTx(events: seq<TxEvent>) {
    Run(Idle, events) == Some(Closed)
  }

  /** `execTx`: begin, run `work` on queries bound to the transaction, then roll back or commit. */
  function ExecTx(db: TxDriver, work: Queries -> Option<Error>): (r: TxRun)
    ensures WellFormedTx(r.events)
    // begin failure: the work never runs and the begin error is returned unchanged
    ensures db.begin.Err? ==> !RanWork(r.events) && r.result == Some(db.begin.error)
    // the work only ever sees the transaction, never the raw handle
    ensures forall i :: 0 <= i < |r.events| && r.events[i].RunWork? ==> r.events[i].q == Queries(InTx(db.begin.value))
    // after a successful begin, exactly one of commit and rollback is attempted
    ensures db.begin.Ok? ==> RanWork(r.events) && (Committed(r.events) <==> !RolledBack(r.events))
    ensures db.begin.Ok? && work(Queries(InTx(db.begin.value))).None? ==>
              !RolledBack(r.events) && r.result == db.commitErr
    ensures db.begin.Ok? && work(Queries(InTx(db.begin.value))).Some? ==>
              var workErr := work(Queries(InTx(db.begin.value))).value;
              && !Committed(r.events)
              && (db.rollbackErr.None? ==> r.result == Some(workErr))
              && (db.rollbackErr.Some? ==>
                    r.result.Some? && Carries(r.result.value, workErr) && Carries(r.result.value, db.rollbackErr.value))
  {
    match db.begin
    case Err(e) => TxRun([Begin(None)], Some(e))
    case Ok(tx) =>
      var q := Queries(InTx(tx));
      match work(q)
      case Some(err) =>
        var events := [Begin(Some(tx)), RunWork(q, true), Rollback(db.rollbackErr.None?)];
        assert Run(WorkDone(true), events[2..]) == Some(Closed);
        assert events[1].RunWork? && events[2].Rollback?;
        (match db.rollbackErr
         case Some(rbErr) => TxRun(events, Some(Combined(err, rbErr)))
         case None => TxRun(events, Some(err)))
      case None =>
        var events := [Begin(Some(tx)), RunWork(q, false), Commit(db.commitErr.None?)];
        assert Run(WorkDone(false), events[2..]) == Some(Closed);
        assert events[1].RunWork? && events[2].Commit?;
        TxRun(events, db.commitErr)
  }
}

=== FILE: strconv.dfy ===
/**
 * Decimal conversion between integers and strings, as Go's `strconv.Itoa` and
 * `strconv.Atoi` (on a 64-bit platform) do it. The producer of the
 * verification-email task writes a user id with `Itoa`; the worker reads it
 * back with `Atoi`.
 */
module Strconv {
  import opened GoTypes

  predicate AllDigits(s: string) {
    forall i :: 0 <= i < |s| ==> IsDigit(s[i])
  }

  function DigitChar(d: nat): (c: char)
    requires d < 10
    ensures IsDigit(c)
  {
    (('0' as int) + d) as char
  }

  function DigitValue(c: char): (d: nat)
    requires IsDigit(c)
    ensures d < 10
  {
    (c as int) - ('0' as int)
  }

  /** Decimal digits of `n`, most significant first, with no leading zero. */
  function NatDigits(n: nat): (s: string)
    ensures |s| >= 1 && AllDigits(s)
    ensures |s| > 1 ==> s[0] != '0'
    decreases n
  {
    if n < 10 then [DigitChar(n)] else NatDigits(n / 10) + [DigitChar(n % 10)]
  }

  /** The number a string of decimal digits denotes. */
  function DigitsValue(s: string): nat
    requires AllDigits(s)
  {
    if |s| == 0 then 0 else DigitsValue(s[..|s| - 1]) * 10 + DigitValue(s[|s| - 1])
  }

  /** `strconv.Itoa`: a leading '-' for negatives, then the digits of the magnitude. */
  function Itoa(i: int): string
  {
    if i < 0 then "-" + NatDigits(-(i as int)) else NatDigits(i)
  }

  /** The digits after an optional leading sign. */
  function Unsigned(s: string): string
  {
    if |s| > 0 && (s[0] == '-' || s[0] == '+') then s[1..] else s
  }

  /** `strconv.Atoi`: an optional sign, at least one digit and nothing else, within int64 range. */
  function Atoi(s: string): (r: Option<int>)
    ensures r.Some? <==> |Unsigned(s)| >= 1 && AllDigits(Unsigned(s)) && MinInt64 <= SignedValue(s) <= MaxInt64
    ensures r.Some? ==> r.value == SignedValue(s)
  {
    var digits := Unsigned(s);
    if |digits| == 0 || !AllDigits(digits) then None
    else
      var v := SignedValue(s);
      if v < MinInt64 || v > MaxInt64 then None else Some(v)
  }

  /** The value of a well-formed signed decimal string. */
  function SignedValue(s: string): int
  {
    var digits := Unsigned(s);
    if !AllDigits(digits) then 0
    else if |s| > 0 && s[0] == '-' then -(DigitsValue(digits) as int) else DigitsValue(digits)
  }

  lemma {:induction false} DigitsValueOfNatDigits(n: nat)
    ensures DigitsValue(NatDigits(n)) == n
    decreases n
  {
    if n >= 10 {
      var prefix := NatDigits(n / 10);
      var s := prefix + [DigitChar(n % 10)];
      assert s[..|s| - 1] == prefix;
      DigitsValueOfNatDigits(n / 10);
    }
  }

  /** Reading back what `Itoa` wrote gives the same integer, for every int64. */
  lemma AtoiItoa(i: Int64)
    ensures Atoi(Itoa(i)) == Some(i)
  {
    var s := Itoa(i);
    if i < 0 {
      var m: nat := -(i as int);
      assert Unsigned(s) == NatDigits(m);
      DigitsValueOfNatDigits(m);
    } else {
      assert Unsigned(s) == NatDigits(i);
      DigitsValueOfNatDigits(i);
    }
  }

  /** Distinct integers are written as distinct strings. */
  lemma ItoaInjective(i: Int64, j: Int64)
    ensures Itoa(i) == Itoa(j) <==> i == j
  {
    AtoiItoa(i);
    AtoiItoa(j);
  }
}

=== FILE: validator.dfy ===
/**
 * Field validators shared by the RPC handlers. Each returns `nil` (Accept) or
 * an error (Reject) naming what was wrong. Lengths are Go string lengths, i.e.
 * UTF-8 bytes; the character checks range over runes.
 */
module Validator {
  import opened GoTypes

  datatype ValidationError =
    | LengthOutOfRange(minLength: int, maxLength: int, got: nat)
    | PhoneLength(got: nat)
    | PhoneNonDigit(found: char)
    | NameNonAlphabetic(field: string, found: char)
    | RoleNotAllowed(role: string)
    | IdNotPositive(id: int)

  datatype Verdict = Accept | Reject(error: ValidationError)

  predicate IsAsciiLetter(c: char) {
    'A' <= c <= 'Z' || 'a' <= c <= 'z'
  }

  /** Index of the first rune of `s` that `accept` refuses, as a `for _, char := range s` loop finds it. */
  function FirstRejected(s: string, accept: char -> bool): (r: Option<nat>)
    ensures r.None? <==> forall i :: 0 <= i < |s| ==> accept(s[i])
    ensures r.Some? ==> r.value < |s| && !accept(s[r.value])
    ensures r.Some? ==> forall j :: 0 <= j < r.value ==> accept(s[j])
  {
    if |s| == 0 then None
    else if !accept(s[0]) then Some(0)
    else
      match FirstRejected(s[1..], accept)
      case None => None
      case Some(i) => Some(i + 1)
  }

  /** `ValidateString`: the byte length must lie in `[minLength, maxLength]`. */
  function ValidateString(value: string, minLength: int, maxLength: int): (r: Verdict)
    ensures r.Accept? <==> minLength <= Utf8Len(value) <= maxLength
    ensures r.Reject? ==> r.error == LengthOutOfRange(minLength, maxLength, Utf8Len(value))
  {
    var n := Utf8Len(value);
    if n < minLength || n > maxLength then Reject(LengthOutOfRange(minLength, maxLength, n)) else Accept
  }

  /** Exactly ten decimal digits. */
  predicate PhoneNumberShape(s: string) {
    |s| == 10 && forall i :: 0 <= i < |s| ==> IsDigit(s[i])
  }

  function ValidatePhoneNumber(phoneNumber: string): (r: Verdict)
    ensures r.Accept? <==> PhoneNumberShape(phoneNumber)
    // the length is checked first: a wrong length is reported whatever the content
    ensures Utf8Len(phoneNumber) != 10 ==> r == Reject(PhoneLength(Utf8Len(phoneNumber)))
    ensures r.Reject? && r.error.PhoneNonDigit? ==>
              exists i :: 0 <= i < |phoneNumber| && phoneNumber[i] == r.error.found && !IsDigit(r.error.found)
    // with the right length, the error names the first rune that is not a digit
    ensures Utf8Len(phoneNumber) == 10 && !PhoneNumberShape(phoneNumber) ==>
              && FirstRejected(phoneNumber, IsDigit).Some?
              && r == Reject(PhoneNonDigit(phoneNumber[FirstRejected(phoneNumber, IsDigit).value]))
  {
    Utf8LenVersusRunes(phoneNumber);
    var n := Utf8Len(phoneNumber);
    if n != 10 then Reject(PhoneLength(n))
    else
      match FirstRejected(phoneNumber, IsDigit)
      case Some(i) => Reject(PhoneNonDigit(phoneNumber[i]))
      case None => Accept
  }

  /** One to thirty ASCII letters. */
  predicate NameShape(s: string) {
    1 <= |s| <= 30 && forall i :: 0 <= i < |s| ==> IsAsciiLetter(s[i])
  }

  /** The body shared by `ValidateFirstName` and `ValidateLastName`; `field` only names the field in the error. */
  function ValidateName(name: string, field: string): (r: Verdict)
    ensures r.Accept? <==> NameShape(name)
    ensures !(1 <= Utf8Len(name) <= 30) ==> r == Reject(LengthOutOfRange(1, 30, Utf8Len(name)))
    ensures r.Reject? && r.error.NameNonAlphabetic? ==> r.error.field == field
    // with a length in range, the error names the field and the first rune that is not a letter
    ensures 1 <= Utf8Len(name) <= 30 && !NameShape(name) ==>
              && FirstRejected(name, IsAsciiLetter).Some?
              && r == Reject(NameNonAlphabetic(field, name[FirstRejected(name, IsAsciiLetter).value]))
  {
    Utf8LenVersusRunes(name);
    match ValidateString(name, 1, 30)
    case Reject(e) => Reject(e)
    case Accept =>
      match FirstRejected(name, IsAsciiLetter)
      case Some(i) => Reject(NameNonAlphabetic(field, name[i]))
      case None => Accept
  }

  function ValidateFirstName(firstName: string): (r: Verdict)
    ensures r.Accept? <==> NameShape(firstName)
    ensures firstName == "" ==> r.Reject?
  {
    ValidateName(firstName, "first name")
  }

  function ValidateLastName(lastName: string): (r: Verdict)
    ensures r.Accept? <==> ValidateFirstName(lastName).Accept?
  {
    ValidateName(lastName, "last name")
  }

  const Roles: set<string> := {"", "admin", "user"}

  /** The empty role is allowed: it stands for "use the column default". */
  function ValidateRole(role: string): (r: Verdict)
    ensures r.Accept? <==> role in Roles
    ensures r.Reject? ==> r.error == RoleNotAllowed(role)
  {
    if role != "" && role != "admin" && role != "user" then Reject(RoleNotAllowed(role)) else Accept
  }

  function ValidateID(id: Int64): (r: Verdict)
    ensures r.Accept? <==> id > 0
    ensures r.Reject? ==> r.error == IdNotPositive(id)
  {
    if id <= 0 then Reject(IdNotPositive(id)) else Accept
  }
}

=== FILE: worker.dfy ===
/**
 * The send-verify-email task: its producer side (`DistributeTaskSendVerifyEmail`)
 * and its handler (`ProcessTaskSendVerifyEmail`).
 *
 * The broker client, the JSON codec and the user lookup are parameters: the
 * model fixes what each answers and states what the task code does with it.
 */
module Worker {
  import opened GoTypes
  import opened Errors
  import Strconv
  import Db

  const TaskSendVerifyEmail: string := "task:send_verify_email"

  /** The name of the high-priority queue (`worker.QueueCritical`). */
  const QueueCritical: string := "critical"

  /** `time.Second`: durations are in nanoseconds. */
  const Second: int := 1_000_000_000

  datatype PayloadSendVerifyEmail = PayloadSendVerifyEmail(userId: string)

  /** `asynq.Option` values the code uses. */
  datatype TaskOption = MaxRetry(n: int) | ProcessIn(nanos: int) | Queue(name: string)

  /** `asynq.NewTask(type, payload, opts...)`. */
  datatype Task = Task(typeName: string, payload: Bytes, opts: seq<TaskOption>)

  /** The enqueue metadata the client returns (`*asynq.TaskInfo`), kept for logging only. */
  datatype TaskInfo = TaskInfo(queue: string, maxRetry: int)

  /** The delivery settings a list of options resolves to; None means the broker's default. */
  datatype Delivery = Delivery(maxRetry: Option<int>, delayNanos: Option<int>, queue: Option<string>)

  /** Options are applied left to right, so the last one of each kind wins. */
  function Resolve(opts: seq<TaskOption>): (d: Delivery)
    ensures (forall i :: 0 <= i < |opts| ==> !opts[i].MaxRetry?) <==> d.maxRetry.None?
    ensures (forall i :: 0 <= i < |opts| ==> !opts[i].Queue?) <==> d.queue.None?
    ensures (forall i :: 0 <= i < |opts| ==> !opts[i].ProcessIn?) <==> d.delayNanos.None?
    ensures |opts| > 0 && opts[|opts| - 1].Queue? ==> d.queue == Some(opts[|opts| - 1].name)
    decreases |opts|
  {
    if |opts| == 0 then Delivery(None, None, None)
    else
      var d := Resolve(opts[..|opts| - 1]);
      assert forall i :: 0 <= i < |opts| - 1 ==> opts[..|opts| - 1][i] == opts[i];
      match opts[|opts| - 1]
      case MaxRetry(n) => d.(maxRetry := Some(n))
      case ProcessIn(t) => d.(delayNanos := Some(t))
      case Queue(q) => d.(queue := Some(q))
  }

  /** Which setting an option is about. */
  function KindOf(o: TaskOption): nat {
    match o
    case MaxRetry(_) => 0
    case ProcessIn(_) => 1
    case Queue(_) => 2
  }

  /** Whether the option at index i is the last one of its kind in opts. */
  predicate LastOfKind(opts: seq<TaskOption>, i: int)
    requires 0 <= i < |opts|
  {
    forall j :: i < j < |opts| ==> KindOf(opts[j]) != KindOf(opts[i])
  }

  /** The setting an option asks for, as it appears in a resolved Delivery. */
  predicate SetsFrom(d: Delivery, o: TaskOption) {
    match o
    case MaxRetry(n) => d.maxRetry == Some(n)
    case ProcessIn(t) => d.delayNanos == Some(t)
    case Queue(q) => d.queue == Some(q)
  }

  /** The last option of each kind decides that setting, whatever comes before or after it. */
  lemma {:induction false} ResolveLastWins(opts: seq<TaskOption>, i: int)
    requires 0 <= i < |opts| && LastOfKind(opts, i)
    ensures SetsFrom(Resolve(opts), opts[i])
    decreases |opts|
  {
    var init := opts[..|opts| - 1];
    if i < |opts| - 1 {
      assert forall j :: i < j < |init| ==> init[j] == opts[j];
      assert LastOfKind(init, i);
      ResolveLastWins(init, i);
      assert init[i] == opts[i];
    }
  }

  /** What a distribution did: the task it handed to the broker, if any, and the error it returned. */
  datatype DistributeRun = DistributeRun(submitted: Option<Task>, err: Option<Error>)

  /**
   * `DistributeTaskSendVerifyEmail`: marshal the payload, build the task,
   * enqueue it. `marshal` stands for `json.Marshal`, `enqueue` for the broker
   * client's `EnqueueContext`.
   */
  function DistributeTaskSendVerifyEmail(
    payload: PayloadSendVerifyEmail,
    opts: seq<TaskOption>,
    marshal: PayloadSendVerifyEmail -> Result<Bytes, Error>,
    enqueue: Task -> Result<TaskInfo, Error>): (r: DistributeRun)
    // a marshal failure enqueues nothing
    ensures marshal(payload).Err? ==>
              r.submitted.None? && r.err == Some(Wrapped("failed to marshal payload", marshal(payload).error))
    // otherwise exactly the typed, encoded task with the caller's options goes to the broker
    ensures marshal(payload).Ok? ==> r.submitted == Some(Task(TaskSendVerifyEmail, marshal(payload).value, opts))
    ensures r.err.None? <==> r.submitted.Some? && enqueue(r.submitted.value).Ok?
    ensures r.submitted.Some? && enqueue(r.submitted.value).Err? ==>
              r.err == Some(Wrapped("failed to enqueue task", enqueue(r.submitted.value).error))
  {
    match marshal(payload)
    case Err(e) => DistributeRun(None, Some(Wrapped("failed to marshal payload", e)))
    case Ok(bytes) =>
      var task := Task(TaskSendVerifyEmail, bytes, opts);
      match enqueue(task)
      case Err(e) => DistributeRun(Some(task), Some(Wrapped("failed to enqueue task", e)))
      case Ok(_) => DistributeRun(Some(task), None)
  }

  /** A handler's answer to the processor: done, drop the task (`asynq.SkipRetry`), or retry it. */
  datatype HandlerOutcome = Done | SkipRetry | Retry(err: Error)

  /** The user a payload names: `int32(strconv.Atoi(payload.UserID))`. */
  function PayloadUserId(payload: PayloadSendVerifyEmail): Option<Int32>
  {
    match Strconv.Atoi(payload.userId)
    case None => None
    case Some(n) => Some(Wrap32(n))
  }

  /**
   * `ProcessTaskSendVerifyEmail`. `unmarshal` stands for `json.Unmarshal` into
   * the payload struct, `getUserById` for the store's `GetUserByID`. The
   * handler only reads.
   */
  function ProcessTaskSendVerifyEmail(
    task: Task,
    unmarshal: Bytes -> Result<PayloadSendVerifyEmail, Error>,
    getUserById: Int32 -> Result<Db.User, Error>): (r: HandlerOutcome)
    // permanent failures: undecodable payload, malformed id, user gone
    ensures r == SkipRetry <==>
              || unmarshal(task.payload).Err?
              || PayloadUserId(unmarshal(task.payload).value).None?
              || getUserById(PayloadUserId(unmarshal(task.payload).value).value) == Err(NoRows)
    ensures r == Done <==>
              && unmarshal(task.payload).Ok?
              && PayloadUserId(unmarshal(task.payload).value).Some?
              && getUserById(PayloadUserId(unmarshal(task.payload).value).value).Ok?
    // any other lookup error is retried, and the retry error carries it
    ensures r.Retry? ==>
              var lookup := getUserById(PayloadUserId(unmarshal(task.payload).value).value);
              lookup.Err? && !IsNoRows(lookup.error) && r.err == Wrapped("failed to get user by ID", lookup.error)
  {
    match unmarshal(task.payload)
    case Err(_) => SkipRetry
    case Ok(payload) =>
      match PayloadUserId(payload)
      case None => SkipRetry
      case Some(id) =>
        match getUserById(id)
        case Err(e) => if IsNoRows(e) then SkipRetry else Retry(Wrapped("failed to get user by ID", e))
        case Ok(_) => Done
  }

  /**
   * The id is read as a 64-bit int and then truncated to int32: the decimal
   * form of any int64 names the user its low 32 bits give.
   */
  lemma PayloadIdTruncates(n: Int64)
    ensures PayloadUserId(PayloadSendVerifyEmail(Strconv.Itoa(n))) == Some(Wrap32(n))
  {
    Strconv.AtoiItoa(n);
  }

  /**
   * So an id string beyond the int32 range names a different user: the id
   * 2^32 above a user's (for user 1, "4294967297") reads as that user.
   */
  lemma OutOfRangeIdAliases(id: Int32, n: Int64)
    requires n == id + 0x1_0000_0000
    ensures PayloadUserId(PayloadSendVerifyEmail(Strconv.Itoa(n))) == Some(id)
  {
    PayloadIdTruncates(n);
    Wrap32Shift(id, n);
  }
}
